=== FILE: README.md ===
# tgposter core, modelled in Dafny

tgposter is an Electron app that comments on and reacts to messages in a list of
Telegram groups and channels. This project models the live logic of
`src/telegram/poster.js` and the small state machine around it in `src/index.js`
and `src/utils.js`:

- **Target ids** (`links.dfy`, `membership.dfy`, `text.dfy`). The invite-hash and
  username regular expressions are modelled as their alternatives plus a
  leftmost search with a greedy `[\w-]+` capture. `isNumericId` is modelled too.
  `Membership.Classify` orders the cases as the code does: invite hash,
  `channel_id:access_hash`, a bare numeric id (refused), username.
  `ensureMembership` is a pure function of the server's reply to each call. It
  returns the peer, or the error, together with the exact list of calls it
  issued.
- **Target selection** (`selection.dfy`). The history is filtered to real
  messages. `$` picks the first, `*` picks the index `getRandomNumber(0, n - 1)`,
  and any other marker is an error. The linked-chat and discussion-message
  lookups are modelled too.
- **Actions and the sweep** (`poster.dfy`). `sendMessage` and `reactToMessage`
  are modelled as functions of the replies and the random draw. Each ends in a
  request the server accepted or a logged error: both catch every error, so
  nothing escapes to the loop. `processGroups` runs the comment, then the
  reaction (target defaulting to `*`), for each item in list order.
- **Item list and control** (`items.dfy`, `control.dfy`). The
  `get-item`/`add-item`/`update-item`/`delete-item` handlers are list
  transformations. `get-item` compares ids with `==`; update and delete use
  `===`. `start`/`stop`, `TASK_COUNT`, the task's life and the
  `requestCode`/`submit-code` resolver are a state machine over a sequence of
  handler calls.
- **`getRandomNumber`** (`random_range.dfy`). `Math.random()` is modelled as an
  ideal real `r` in [0, 1).

`src/index.js` imports `getIsRunning` and `setIsRunning` from `poster.js`, which
does not export them. As written, the `start` handler throws before it reaches
the `TASK_COUNT` test. The model uses one abstract running flag: `start` and
`processGroups` raise it, and `stop` lowers it. `Control.Step` describes the
handlers with that flag in place. A rejected task keeps `TASK_COUNT` at 1,
because `task.then(() => TASK_COUNT--)` has no rejection handler, so `start`
never launches again (`Control.RejectedTaskBlocksRestart`).

## Model

| member | source | states |
|---|---|---|
| Text.WordRunLength | src/telegram/poster.js:14 | the greedy `[\w-]+` consumes exactly the longest run of word characters at that position |
| Text.RemoveFirst | src/telegram/poster.js:20 | `replace('@', '')` removes only the first `@` and leaves the string unchanged when there is none |
| Text.Split | src/telegram/poster.js:51 | the parts of `split(':')` contain no `:` and join back to the input |
| Text.SplitJoin | src/telegram/poster.js:51 | splitting a join of separator-free parts gives the parts back |
| Text.SplitInTwo | src/telegram/poster.js:51-52 | a string with exactly one `:` splits into exactly its two sides |
| Text.DecimalValue | src/telegram/poster.js:54 | `parseInt(s, 10)` of n decimal digits is a natural number below 10^n |
| Text.DecimalString | src/telegram/poster.js:54 | `parseInt(s, 10)` of a number's decimal form gives the number back |
| Links.ExtractInviteHash | src/telegram/poster.js:13-16 | a hash found is a non-empty `[\w-]` run occurring in the input (which run, and when there is none, is pinned down by the next two rows) |
| Links.ExtractInviteHashFound | src/telegram/poster.js:13-16 | the hash is the maximal non-empty `[\w-]` run after the leftmost `t.me/joinchat/` or `t.me/+` that is followed by one |
| Links.ExtractInviteHashAbsent | src/telegram/poster.js:13-16 | the result is null exactly when no such link occurs anywhere |
| Links.ExtractUsername | src/telegram/poster.js:18-21 | the result is a non-empty `[\w-]` run occurring in the input, or the input with its first `@` removed |
| Links.InviteLinkRoundTrip | src/telegram/poster.js:14 | both invite-link shapes built from a hash give that hash back |
| Links.ExtractUsernameFound | src/telegram/poster.js:18-21 | with a `t.me/` link, the name is the maximal `[\w-]` run after the leftmost one |
| Links.ExtractUsernameAbsent | src/telegram/poster.js:18-21 | without a link, the input is returned with only its first `@` removed |
| Links.UsernameLinkRoundTrip | src/telegram/poster.js:19 | `t.me/<name>` gives `<name>` back |
| Links.ExtractUsernameFromHandle | src/telegram/poster.js:20 | `@<name>` gives `<name>` back |
| Links.IsNumericId | src/telegram/poster.js:23-25 | a numeric id is non-empty and holds no `:`, `@` or `t`, so it can never be a pair, a handle or a link |
| Membership.Classify | src/telegram/poster.js:29-70 | the invite hash wins; otherwise two numeric parts form a pair (value of the first, second verbatim); otherwise an all-digit id is refused; otherwise a username |
| Membership.PairClassified | src/telegram/poster.js:51-65 | `id:hash` with numeric parts gives channel id = decimal value of `id` and access hash = `hash` |
| Membership.PairFormClassified | src/telegram/poster.js:46-65 | whatever spelling the target takes (such as `@1:2`), a username part `id:hash` with both sides numeric is classified as that pair |
| Membership.PairRoundTrip | src/telegram/poster.js:51-65 | a channel id written in decimal with a hash classifies back to that id and hash |
| Membership.BareNumericIdRefused | src/telegram/poster.js:67-70 | an all-digit id without a hash is refused |
| Membership.HandleClassified | src/telegram/poster.js:46-74 | `@name` whose name is not all digits and holds no `:` and no `t.me/` is resolved as the username `name` |
| Membership.PairTargetNeverResolves | src/telegram/poster.js:52-65 | an id:hash target issues no `contacts.resolveUsername` and no invite import |
| Membership.CheckParticipant | src/telegram/poster.js:84-100 | the participant check is made; `USER_NOT_PARTICIPANT` leads to exactly one join; the same peer is returned; other errors pass on |
| Membership.JoinByInvite | src/telegram/poster.js:31-44 | the invite is imported; the path succeeds exactly when the import returns a chat (the first is the peer), or when its error includes `USER_ALREADY_PARTICIPANT` and the invite check answers (its chat is the peer); any other error is passed on with its own message |
| Membership.JoinTarget | src/telegram/poster.js:31-101 | an invite target runs the invite branch (so the peer and success condition of `JoinByInvite` apply); an id:hash target checks and joins the parsed channel and its peer is built locally; a username is resolved first, the check and the join address the first resolved chat, and that chat is the peer; each path's success condition is stated |
| Membership.EnsureMembership | src/telegram/poster.js:27-106 | a refused id is refused before any RPC; every other id runs the decision tree of its classified target and issues at least one call |
| Membership.MembershipTrace | src/telegram/poster.js:37-99 | every call but the last succeeded or hit its one recoverable error; an unrecovered failure is rethrown with its own message |
| Membership.AtMostOneJoin | src/telegram/poster.js:91-99 | at most one `channels.joinChannel`, right after a check that answered `USER_NOT_PARTICIPANT` |
| Membership.PairPeerLacksId | src/telegram/poster.js:61-65 | as written, the peer of target `1:2` has no `id` for the senders to read |
| Membership.PairPeerAddressesChannel | src/telegram/poster.js:52-65 | a successful participant check makes membership succeed, and then the id:hash peer's channel id is the parsed id and its access hash is the given one |
| RandomRange.Ceil | src/utils.js:4 | `Math.ceil` gives the least integer not below its argument |
| RandomRange.GetRandomNumber | src/utils.js:3-7 | for r in [0,1) and a non-empty rounded range, the result lies in [ceil(min), floor(max)] |
| RandomRange.BoundsRoundedInward | src/utils.js:4-5 | real bounds act as their inward-rounded integers |
| RandomRange.SinglePoint | src/utils.js:3-7 | with min = max the result is min, whatever r is |
| RandomRange.EveryValueReachable | src/utils.js:6 | every integer of [min, max] is produced by some r in [0,1) |
| RandomRange.IndexDraw | src/utils.js:3-7 | `getRandomNumber(0, n - 1)` is a valid index into a list of length n >= 1 |
| Selection.ValidMessages | src/telegram/poster.js:168-170 | the filter keeps exactly the messages with a truthy id and `_ === 'message'` |
| Selection.ValidMessagesAppend | src/telegram/poster.js:168-170 | the filter keeps the original order |
| Selection.FirstValidMessage | src/telegram/poster.js:177-178 | `$` sees the first valid message of the history |
| Selection.PickTarget | src/telegram/poster.js:172-186 | an empty list is an error; `$` gives element 0; `*` gives some valid message; other markers are unsupported; the "Random message not found" guard never fires |
| Selection.EveryCandidateReachable | src/telegram/poster.js:179-183 | under `*` every valid message is picked by some draw |
| Selection.LinkedChat | src/telegram/poster.js:114-118 | "No linked chat" exactly when `linked_chat_id` is absent or falsy, "Linked chat not found" exactly when no chat has it, no other failure, and otherwise the first chat with that id |
| Selection.DiscussionMessageId | src/telegram/poster.js:248-256 | the id of the first message forwarded from (channel, post), and a failure when there is none |
| Items.LooseEquals | src/index.js:72 | `==` holds whenever `===` does and agrees with it on keys of one type; a digit string meets a number exactly when its decimal value is that number, and no other non-empty string meets a number |
| Items.GetItem | src/index.js:71-74 | the first item whose id `==` the key, or nothing when none matches |
| Items.AddItem | src/index.js:76-81 | the old list unchanged with the item at the end |
| Items.UpdateItem | src/index.js:83-88 | same length and order; items whose id `===` the new id are replaced, the rest kept |
| Items.DeleteItem | src/index.js:90-94 | no kept item has the id, and every item with another id is kept |
| Items.UpdateWithoutMatch | src/index.js:85 | an update that matches nothing is a no-op |
| Items.UpdateIdempotent | src/index.js:85 | updating twice equals updating once |
| Items.DeleteIdempotent | src/index.js:91 | deleting twice equals deleting once |
| Items.DeleteAppend | src/index.js:91 | deletion keeps the remaining items in order |
| Items.DeleteWithoutMatch | src/index.js:91 | deleting an absent id is a no-op |
| Items.DeleteUndoesAdd | src/index.js:76-94 | adding then deleting that id equals deleting it from the old list |
| Items.DeleteAfterUpdate | src/index.js:83-94 | updating then deleting an id equals deleting it |
| Items.GetAfterAdd | src/index.js:71-81 | an added item is found by `get-item` when no earlier item matches |
| Items.GetAfterDelete | src/index.js:71-94 | with keys of one type, `get-item` finds nothing after a deletion of that id |
| Items.GetAfterDeleteAcrossTypes | src/index.js:71-94 | deleting the number n keeps an item whose id is a digit string with value n, and `get-item(n)` still returns it |
| Poster.SendMessage | src/telegram/poster.js:148-199 | a numeric id or a failed membership is logged; after joining, a failed history fetch, an empty valid list, an unknown marker and a failed send are each logged with their own failure, and otherwise the message is sent; the reply goes to the picked valid message (`$`: the first), and there is no reply without a target |
| Poster.ReactToMessage | src/telegram/poster.js:201-239 | a numeric id or a failed membership is logged; after joining, a failed history fetch, an empty valid list, an unknown marker and a failed send are each logged with their own failure, and otherwise the reaction is sent to the picked valid message (`$`: the first) |
| Poster.PairTargetAddressesChannel | src/telegram/poster.js:150-160 | an untargeted message to an id:hash target is delivered when the server accepts, and every delivered message addresses the parsed channel id and the given hash |
| Poster.ReactionMatchesReply | src/telegram/poster.js:162-234 | a reaction and a reply with the same marker, replies and draw are both sent or both not, and land on the same message of the same peer |
| Poster.ReactionTarget | src/telegram/poster.js:406 | `target \|\| '*'`: the reaction target defaults to `*` |
| Poster.GroupActions | src/telegram/poster.js:403-406 | a comment exactly when the comment is truthy, a reaction exactly when the reaction is; the comment comes first |
| Poster.SweepFrom | src/telegram/poster.js:400-412 | items are handled in list order, and within an item the comment precedes the reaction |
| Poster.SweepGroup | src/telegram/poster.js:402-412 | the sweep's actions for item k are exactly that item's loop body |
| Poster.Perform | src/telegram/poster.js:405-406 | a comment is sent by `sendMessage` with the item's own target; a reaction by `reactToMessage` with its marker |
| Poster.RunSweep | src/telegram/poster.js:402-406 | one effect per planned action, in plan order, each the action performed under its own replies and draw |
| Poster.ActionsIndependent | src/telegram/poster.js:402-406 | what an action does depends only on its own replies and draw, so failed actions never stop the sweep (a corollary of `RunSweep`) |
| Control.Step | src/index.js:113-161 | `start` raises the flag and, only when `TASK_COUNT` is not positive, launches a task, changing nothing else; `stop` only lowers the flag; `request-code` installs a fresh resolver and changes nothing else; a failed authentication ends the task without sweeping; the sweep starts only after a successful one; the loop ends and the count drops once the flag is seen down; a rejection ends the task and keeps the count; `submit-code` throws on an empty code and invokes a pending resolver once, then clears it |
| Control.Run | src/index.js:113-161 | one notice per handler call, in order; with no `start` among the calls no task is launched |
| Control.RunKeepsInv | src/index.js:113-124 | `TASK_COUNT` stays in {0, 1} over any sequence of handler calls |
| Control.RunKeepsInSync | src/index.js:115-122 | while no task rejects, `TASK_COUNT` is 1 exactly while a task runs |
| Control.StartWhileRunningLaunchesNothing | src/index.js:115-119 | while a task runs, `start` launches nothing |
| Control.RejectedTaskBlocksRestart | src/index.js:122 | after a rejected task `TASK_COUNT` stays 1 and `start` never launches again |
| Control.RejectionNeverRestarts | src/index.js:121-122 | once a running task rejects, `TASK_COUNT` stays at 1 and `start` never launches again |
| Control.DeliveriesIncrease | src/index.js:152-161 | each resolver is invoked at most once: the settled promises strictly increase |
| Control.StopDuringAuthenticationIsLost | src/telegram/poster.js:399 | a `stop` during authentication is overwritten when `processGroups` raises the flag |
| Control.NoTaskUntilStart | src/index.js:113-125 | without a `start`, no task appears and `TASK_COUNT` does not change |
| Control.FailedAuthenticationNeverSweeps | src/telegram/poster.js:392-397 | after a failed authentication the sweep never runs before the next `start`, and `TASK_COUNT` has dropped |
| Control.StopEndsSweep | src/telegram/poster.js:400-414 | `stop` during the sweep ends the task at the loop test, `TASK_COUNT` returns to 0, and the next `start` launches again |

## Findings

| source | as written | input that shows it | evidently intended | confidence | as-written member | corrected member |
|---|---|---|---|---|---|---|
| src/telegram/poster.js:61-65 | the id:hash form returns `{ _: 'inputPeerChannel', channel_id, access_hash }`; `sendMessage` and `reactToMessage` then send `channel_id: peer.id`, which is undefined for this object | target `1:2`, with the participant check succeeding | requests address `channel_id` 1 with `access_hash` "2" | high; not executed | Membership.PairPeerLacksId | Poster.PairTargetAddressesChannel |

The action functions use `Membership.PeerChannelId`, the corrected reading.
`Membership.PeerIdAsWritten` keeps the reading as written.

## Left out

- Transport and pacing: `mtprotoCall` only calls and then sleeps (poster.js:7-11). Each call's result is an input (`Reply`: payload or `error_message`). src/telegram/mtproto.js is not part of this model.
- Authentication: only its outcome is modelled (`AuthFinished(ok)`); a failure ends the task before the sweep starts.
- Configuration and persistence (src/config.js): the item list and the delays are given values.
- The Electron window, dialogs, IPC plumbing and the other handlers (`get-items`, the config handlers, `open-devtools`, `request-restart`): UI and file I/O.
- src/encrypt.js, src/decrypt.js and src/ai.js: foreign crypto, file I/O and an HTTP call.
- The `prompt` field: it reaches `sendMessage` but is unused there (AI replies are a TODO at poster.js:190).
- `random_id` and floating-point detail: `Math.random()` is an ideal real in [0, 1), and `random_id` is not modelled.
- `parseInt` precision above 2^53: channel ids are unbounded integers.
- Timing of the `IS_RUNNING` loop and of `sleep`: a loop iteration is one `IterationEnd` event.
- `sendCommentToPost`, `reactToComment`, `getLastChannelPost` and `getRandomChannelPost`: dead code. The only calls to the first two are commented out (poster.js:408-411). The other two are called only from `sendCommentToPost`. Only the lookups they use, `Selection.LinkedChat` and `Selection.DiscussionMessageId`, are modelled.
- Poster.SendMessage, Poster.ReactToMessage: requests address the channel through `Membership.PeerChannelId`, the corrected reading. As written, an id:hash target sends `channel_id: undefined` to `messages.getHistory`, `messages.sendMessage` and `messages.sendReaction` (poster.js:155, 164, 205, 230); `Membership.PeerIdAsWritten` and `Membership.PairPeerLacksId` keep that reading.
- Membership.JoinByInvite: an import reply with no chats ends in `NoChatReturned`. The source returns an undefined peer, whose `id` its callers read at once inside their own `try`, so the action fails and is logged all the same.
- Membership.Recovered: an error object without `error_message` would make `.includes` throw a TypeError. The model assumes every RPC error carries a message.
- Selection.Message: a missing or falsy `id` is represented as 0, and `null` history entries are not modelled. A `getHistory` reply without `messages` is passed in as an empty list.
- Items.LooseEquals: `Number()` is modelled only for "" (0) and plain decimal digits. Ids are strings or integers. Whitespace, signs, fractions, hex and NaN ids are not modelled.
- Control.Step: the `request-code` message to the window is not modelled. Promise numbers are a modelling device to tell resolvers apart.

=== FILE: control.dfy ===
/** The control state of src/index.js: the `start` / `stop` handlers with
    `TASK_COUNT`, the life of the task `start` launches (authentication, then
    the sweep loop of `processGroups` until the running flag is seen false),
    and the `requestCode` / `submit-code` resolver handshake. Handlers run one at
    a time, so the state is a sequence of events. */
module Control {
  import opened Outcomes

  /** Where the task launched by `start` is. */
  datatype Phase = NoTask | Authenticating | Sweeping

  /** `resolver` is the pending `codeResolver`, named by the number of the
      `requestCode` promise it settles; `nextPromise` numbers the next one. */
  datatype State = State(running: bool, taskCount: int, phase: Phase, resolver: Option<nat>, nextPromise: nat)

  datatype Event =
    | Start                     // the `start` handler
    | Stop                      // the `stop` handler
    | AuthFinished(ok: bool)    // `authenticate` settles inside the task
    | IterationEnd              // the sweep loop reaches its `while (IS_RUNNING)` test
    | TaskRejected              // the task's promise rejects (an error escapes `processGroups`)
    | RequestCode               // `requestCode` is called
    | SubmitCode(code: string)  // the `submit-code` handler

  /** What the handler logs, returns or throws. */
  datatype Notice =
    | Started
    | AlreadyRunning
    | Stopped
    | CodeRequested(promise: nat)
    | CodeDelivered(promise: nat, code: string)
    | CodeIgnored
    | InvalidCode
    | Silent

  datatype Transition = Transition(next: State, notice: Notice)

  const Initial: State := State(false, 0, NoTask, None, 0)

  /** `TASK_COUNT` is 0 or 1 and is 1 while a task runs; every resolver was
      numbered before. */
  predicate Inv(s: State) {
    && 0 <= s.taskCount <= 1
    && (s.phase != NoTask ==> s.taskCount == 1)
    && (s.resolver.Some? ==> s.resolver.value < s.nextPromise)
  }

  /** `TASK_COUNT` counts exactly the running task. */
  predicate InSync(s: State) {
    Inv(s) && s.taskCount == (if s.phase == NoTask then 0 else 1)
  }

  function Step(s: State, e: Event): (t: Transition)
    ensures Inv(s) ==> Inv(t.next)
    // `start` raises the flag before anything else; it launches a task only when none is counted.
    ensures e.Start? ==> t.next.running
    ensures e.Start? && s.taskCount > 0 ==> t == Transition(s.(running := true), AlreadyRunning)
    ensures e.Start? && s.taskCount <= 0 ==>
      t == Transition(s.(running := true, taskCount := s.taskCount + 1, phase := Authenticating), Started)
    // `stop` only lowers the flag.
    ensures e.Stop? ==> t.next == s.(running := false)
    // A new `requestCode` installs a fresh resolver and changes nothing else.
    ensures e.RequestCode? ==>
      t == Transition(s.(resolver := Some(s.nextPromise), nextPromise := s.nextPromise + 1), CodeRequested(s.nextPromise))
    // `submit-code`: an empty code throws; a pending resolver is invoked once and cleared.
    ensures e.SubmitCode? && e.code == "" ==> t == Transition(s, InvalidCode)
    ensures e.SubmitCode? && e.code != "" && s.resolver.Some? ==>
      t.notice == CodeDelivered(s.resolver.value, e.code) && t.next == s.(resolver := None)
    ensures e.SubmitCode? && e.code != "" && s.resolver.None? ==> t == Transition(s, CodeIgnored)
    ensures t.notice.CodeDelivered? ==> e.SubmitCode? && s.resolver == Some(t.notice.promise)
    // A failed authentication returns from `processGroups`: the task fulfils
    // without sweeping; a successful one raises the flag and starts the loop.
    ensures e == AuthFinished(false) && s.phase == Authenticating ==>
      t.next.phase == NoTask && t.next.taskCount == s.taskCount - 1 && t.next.running == s.running
    ensures e == AuthFinished(true) && s.phase == Authenticating ==> t.next.phase == Sweeping && t.next.running
    // The sweep starts only from a successful authentication.
    ensures t.next.phase == Sweeping ==> s.phase == Sweeping || (e == AuthFinished(true) && s.phase == Authenticating)
    // The loop goes round while the flag is up and ends once it is seen down.
    ensures e.IterationEnd? && s.phase == Sweeping && s.running ==> t.next == s
    ensures e.IterationEnd? && s.phase == Sweeping && !s.running ==>
      t.next.phase == NoTask && t.next.taskCount == s.taskCount - 1
    // Settlement only decrements a counted task when the promise fulfils.
    ensures e.TaskRejected? ==> t.next.taskCount == s.taskCount && t.next.phase == NoTask
    ensures t.next.taskCount < s.taskCount ==> s.phase != NoTask && t.next.phase == NoTask
  {
    match e
    case Start =>
      var s1 := s.(running := true);
      if s1.taskCount > 0 then Transition(s1, AlreadyRunning)
      else Transition(s1.(taskCount := s1.taskCount + 1, phase := Authenticating), Started)
    case Stop => Transition(s.(running := false), Stopped)
    case AuthFinished(ok) =>
      if s.phase != Authenticating then Transition(s, Silent)
      // A failed authentication returns from `processGroups`, so the task fulfils.
      else if !ok then Transition(s.(phase := NoTask, taskCount := s.taskCount - 1), Silent)
      // `processGroups` sets the flag itself before the loop.
      else Transition(s.(phase := Sweeping, running := true), Silent)
    case IterationEnd =>
      if s.phase != Sweeping || s.running then Transition(s, Silent)
      else Transition(s.(phase := NoTask, taskCount := s.taskCount - 1), Silent)
    case TaskRejected =>
      // `task.then(() => TASK_COUNT--)` has no rejection handler.
      if s.phase == NoTask then Transition(s, Silent) else Transition(s.(phase := NoTask), Silent)
    case RequestCode =>
      Transition(s.(resolver := Some(s.nextPromise), nextPromise := s.nextPromise + 1), CodeRequested(s.nextPromise))
    case SubmitCode(code) =>
      if code == "" then Transition(s, InvalidCode)
      else match s.resolver
        case Some(p) => Transition(s.(resolver := None), CodeDelivered(p, code))
        case None => Transition(s, CodeIgnored)
  }

  datatype Trace = Trace(final: State, notices: seq<Notice>)

  /** The handlers run one after another. */
  function Run(s: State, es: seq<Event>): (tr: Trace)
    ensures |tr.notices| == |es|
    // Without a `start`, no task is launched.
    ensures (forall i :: 0 <= i < |es| ==> es[i] != Start) ==> forall i :: 0 <= i < |es| ==> tr.notices[i] != Started
    decreases |es|
  {
    if |es| == 0 then Trace(s, [])
    else
      var t := Step(s, es[0]);
      var rest := Run(t.next, es[1..]);
      Trace(rest.final, [t.notice] + rest.notices)
  }

  /** `TASK_COUNT` stays in {0, 1} along any sequence of handler calls. */
  lemma {:induction false} RunKeepsInv(s: State, es: seq<Event>)
    requires Inv(s)
    ensures Inv(Run(s, es).final)
    decreases |es|
  {
    if |es| > 0 {
      RunKeepsInv(Step(s, es[0]).next, es[1..]);
    }
  }

  /** While no task rejects, `TASK_COUNT` is 1 exactly when a task runs. */
  lemma {:induction false} RunKeepsInSync(s: State, es: seq<Event>)
    requires InSync(s)
    requires forall i :: 0 <= i < |es| ==> es[i] != TaskRejected
    ensures InSync(Run(s, es).final)
    decreases |es|
  {
    if |es| > 0 {
      RunKeepsInSync(Step(s, es[0]).next, es[1..]);
    }
  }

  /** Two `Started` notices are always separated by the end of the first
      task: from any state, at most one task is launched while one is running. */
  lemma {:induction false} StartWhileRunningLaunchesNothing(s: State, es: seq<Event>)
    requires Inv(s) && s.phase != NoTask
    requires forall i :: 0 <= i < |es| ==> es[i] == Start || es[i] == Stop || es[i] == RequestCode || es[i].SubmitCode?
    ensures forall i :: 0 <= i < |es| ==> Run(s, es).notices[i] != Started
    ensures Run(s, es).final.phase == s.phase
    decreases |es|
  {
    if |es| > 0 {
      StartWhileRunningLaunchesNothing(Step(s, es[0]).next, es[1..]);
    }
  }

  /** After a task rejects, `TASK_COUNT` stays at 1 and `start` never launches
      again. */
  lemma {:induction false} RejectedTaskBlocksRestart(s: State, es: seq<Event>)
    requires s.taskCount == 1 && s.phase == NoTask
    ensures forall i :: 0 <= i < |es| ==> Run(s, es).notices[i] != Started
    ensures Run(s, es).final.taskCount == 1 && Run(s, es).final.phase == NoTask
    decreases |es|
  {
    if |es| > 0 {
      RejectedTaskBlocksRestart(Step(s, es[0]).next, es[1..]);
    }
  }

  /** A task that rejects, from any reachable state, leaves `start` unable to
      launch for the rest of the run. */
  lemma RejectionNeverRestarts(s: State, es: seq<Event>)
    requires Inv(s) && s.phase != NoTask
    ensures forall i :: 0 <= i < |es| ==> Run(Step(s, TaskRejected).next, es).notices[i] != Started
    ensures Run(Step(s, TaskRejected).next, es).final.taskCount == 1
  {
    RejectedTaskBlocksRestart(Step(s, TaskRejected).next, es);
  }

  /** The least promise number a future delivery can carry. */
  function NextDeliverable(s: State): nat {
    match s.resolver
    case Some(p) => p
    case None => s.nextPromise
  }

  /** Each resolver is invoked at most once: the promises settled by
      `submit-code` strictly increase along any run. */
  lemma {:induction false} DeliveriesIncrease(s: State, es: seq<Event>)
    requires Inv(s)
    ensures forall i :: 0 <= i < |es| && Run(s, es).notices[i].CodeDelivered? ==>
      Run(s, es).notices[i].promise >= NextDeliverable(s)
    ensures forall i, j :: 0 <= i < j < |es| && Run(s, es).notices[i].CodeDelivered? && Run(s, es).notices[j].CodeDelivered? ==>
      Run(s, es).notices[i].promise < Run(s, es).notices[j].promise
    decreases |es|
  {
    if |es| > 0 {
      var t := Step(s, es[0]);
      DeliveriesIncrease(t.next, es[1..]);
      assert NextDeliverable(t.next) >= NextDeliverable(s);
      assert t.notice.CodeDelivered? ==> NextDeliverable(t.next) > t.notice.promise;
      var n := Run(s, es).notices;
      assert n == [t.notice] + Run(t.next, es[1..]).notices;
    }
  }

  /** A `stop` during authentication is overwritten: `processGroups` raises
      the flag itself once authenticated, so the sweep loop starts. */
  lemma StopDuringAuthenticationIsLost(s: State)
    requires s.phase == Authenticating
    ensures Run(s, [Stop, AuthFinished(true)]).final.running
    ensures Run(s, [Stop, AuthFinished(true)]).final.phase == Sweeping
  {
    assert [Stop, AuthFinished(true)][1..] == [AuthFinished(true)];
  }

  /** Without a `start`, no task appears and `TASK_COUNT` stays put. */
  lemma {:induction false} NoTaskUntilStart(s: State, es: seq<Event>)
    requires s.phase == NoTask
    requires forall i :: 0 <= i < |es| ==> es[i] != Start
    ensures Run(s, es).final.phase == NoTask && Run(s, es).final.taskCount == s.taskCount
    decreases |es|
  {
    if |es| > 0 {
      NoTaskUntilStart(Step(s, es[0]).next, es[1..]);
    }
  }

  /** After a failed authentication the sweep never runs until the next `start`,
      whatever else happens. */
  lemma FailedAuthenticationNeverSweeps(s: State, es: seq<Event>)
    requires s.phase == Authenticating
    requires forall i :: 0 <= i < |es| ==> es[i] != Start
    ensures Run(s, [AuthFinished(false)] + es).final.phase == NoTask
    ensures Run(s, [AuthFinished(false)] + es).final.taskCount == s.taskCount - 1
  {
    assert ([AuthFinished(false)] + es)[1..] == es;
    NoTaskUntilStart(Step(s, AuthFinished(false)).next, es);
  }

  /** `stop` during the sweep ends the task at the loop's next test, which
      brings `TASK_COUNT` back to 0, so the next `start` launches again. */
  lemma StopEndsSweep(s: State)
    requires InSync(s) && s.phase == Sweeping
    ensures var f := Run(s, [Stop, IterationEnd]).final;
      f.phase == NoTask && f.taskCount == 0 && !f.running
    ensures Run(s, [Stop, IterationEnd, Start]).notices[2] == Started
  {
    assert [Stop, IterationEnd][1..] == [IterationEnd];
    assert [Stop, IterationEnd, Start][1..] == [IterationEnd, Start];
    assert [IterationEnd, Start][1..] == [Start];
  }
}

=== FILE: items.dfy ===
/** The target list handlers of src/index.js (`get-item`, `add-item`,
    `update-item`, `delete-item`), as transformations of the stored list. */
module Items {
  import opened Outcomes
  import opened Seqs
  import opened Text

  /** The value of an item's `id`: the form writes strings, hand-edited data
      may hold numbers. */
  datatype Key = Str(s: string) | Num(n: int)

  /** One configured target: `{ id, comment, reaction, prompt, target }`, each
      field `None` when absent. */
  datatype Item = Item(id: Key, comment: Option<string>, reaction: Option<string>,
                       prompt: Option<string>, target: Option<string>)

  /** `Number(s)` for the strings this model reads: "" is 0, plain decimal
      digits are their value, anything else is NaN (`None`). */
  function ToNumber(s: string): Option<int> {
    if |s| == 0 then Some(0) else if AllDigits(s) then Some(DecimalValue(s)) else None
  }

  /** `a === b`. */
  predicate StrictEquals(a: Key, b: Key) {
    a == b
  }

  /** `a == b`: values of one type compare as `===`; a string meets a number
      after conversion with `Number`. */
  predicate LooseEquals(a: Key, b: Key): (r: bool)
    ensures StrictEquals(a, b) ==> r
    // Keys of one type compare as `===`; a string meets a number only when it is "" or all digits.
    ensures a.Str? == b.Str? ==> (r <==> StrictEquals(a, b))
    ensures r && a.Str? && b.Num? ==> AllDigits(a.s)
    ensures r && a.Num? && b.Str? ==> AllDigits(b.s)
    ensures a.Str? && b.Num? && |a.s| > 0 && AllDigits(a.s) ==> (r <==> DecimalValue(a.s) == b.n)
    ensures a.Num? && b.Str? && |b.s| > 0 && AllDigits(b.s) ==> (r <==> DecimalValue(b.s) == a.n)
  {
    match (a, b)
    case (Str(x), Num(n)) => ToNumber(x) == Some(n)
    case (Num(n), Str(x)) => ToNumber(x) == Some(n)
    case _ => a == b
  }

  /** Strict equality implies loose equality, and the two agree on keys of one type. */
  lemma StrictIsLoose(a: Key, b: Key)
    ensures StrictEquals(a, b) ==> LooseEquals(a, b)
    ensures a.Str? == b.Str? ==> (LooseEquals(a, b) <==> StrictEquals(a, b))
  {
  }

  /** They differ across types: `"7" == 7` holds, `"7" === 7` does not. */
  lemma LooseMeetsAcrossTypes()
    ensures LooseEquals(Str("7"), Num(7)) && !StrictEquals(Str("7"), Num(7))
  {
    assert AllDigits("7");
    assert DecimalValue("7") == 10 * DecimalValue("") + DigitValue('7');
  }

  /** `get-item` (index.js:71-74): the first item whose id `==` the key. */
  function GetItem(items: seq<Item>, key: Key): (r: Option<Item>)
    ensures r.Some? ==>
      exists i :: 0 <= i < |items| && items[i] == r.value && LooseEquals(r.value.id, key)
                && forall j :: 0 <= j < i ==> !LooseEquals(items[j].id, key)
    ensures r.None? <==> forall i :: 0 <= i < |items| ==> !LooseEquals(items[i].id, key)
  {
    FindFirst(items, (x: Item) => LooseEquals(x.id, key))
  }

  /** `add-item` (index.js:76-81): the item is pushed at the end. */
  function AddItem(items: seq<Item>, item: Item): (r: seq<Item>)
    ensures |r| == |items| + 1 && r[..|items|] == items && r[|items|] == item
  {
    items + [item]
  }

  /** `update-item` (index.js:83-88): every item whose id `===` the new item's
      id is replaced by it. */
  function UpdateItem(items: seq<Item>, updated: Item): (r: seq<Item>)
    ensures |r| == |items|
    ensures forall i :: 0 <= i < |items| ==> r[i] == (if StrictEquals(items[i].id, updated.id) then updated else items[i])
  {
    seq(|items|, i requires 0 <= i < |items| => if StrictEquals(items[i].id, updated.id) then updated else items[i])
  }

  /** The filter of `delete-item`: `i => i.id !== id`. */
  function KeepsOtherIds(key: Key): Item -> bool {
    (x: Item) => !StrictEquals(x.id, key)
  }

  /** `delete-item` (index.js:90-94): keep the items whose id `!==` the key. */
  function DeleteItem(items: seq<Item>, key: Key): (r: seq<Item>)
    ensures forall i :: 0 <= i < |r| ==> !StrictEquals(r[i].id, key) && r[i] in items
    ensures forall i :: 0 <= i < |items| && !StrictEquals(items[i].id, key) ==> items[i] in r
  {
    Filter(items, KeepsOtherIds(key))
  }

  /** Updating with an id nobody has changes nothing. */
  lemma UpdateWithoutMatch(items: seq<Item>, updated: Item)
    requires forall i :: 0 <= i < |items| ==> !StrictEquals(items[i].id, updated.id)
    ensures UpdateItem(items, updated) == items
  {
  }

  /** Updating twice with the same item is updating once. */
  lemma UpdateIdempotent(items: seq<Item>, updated: Item)
    ensures UpdateItem(UpdateItem(items, updated), updated) == UpdateItem(items, updated)
  {
  }

  /** Deleting twice is deleting once. */
  lemma DeleteIdempotent(items: seq<Item>, key: Key)
    ensures DeleteItem(DeleteItem(items, key), key) == DeleteItem(items, key)
  {
    FilterIdempotent(items, KeepsOtherIds(key));
  }

  /** Deleting from a concatenation deletes from each side in place: the kept
      items stay in their order. */
  lemma DeleteAppend(a: seq<Item>, b: seq<Item>, key: Key)
    ensures DeleteItem(a + b, key) == DeleteItem(a, key) + DeleteItem(b, key)
  {
    FilterAppend(a, b, KeepsOtherIds(key));
  }

  /** Deleting an id nobody has changes nothing. */
  lemma DeleteWithoutMatch(items: seq<Item>, key: Key)
    requires forall i :: 0 <= i < |items| ==> !StrictEquals(items[i].id, key)
    ensures DeleteItem(items, key) == items
  {
    FilterAllPass(items, KeepsOtherIds(key));
  }

  /** Deleting what was just added under that id gives the deletion of the old list. */
  lemma DeleteUndoesAdd(items: seq<Item>, item: Item)
    ensures DeleteItem(AddItem(items, item), item.id) == DeleteItem(items, item.id)
  {
    DeleteAppend(items, [item], item.id);
    assert DeleteItem([item], item.id) == [];
  }

  /** An update followed by a deletion of the same id is the deletion alone. */
  lemma {:induction false} DeleteAfterUpdate(items: seq<Item>, updated: Item)
    ensures DeleteItem(UpdateItem(items, updated), updated.id) == DeleteItem(items, updated.id)
    decreases |items|
  {
    if |items| > 0 {
      var u := UpdateItem(items, updated);
      assert u[1..] == UpdateItem(items[1..], updated);
      DeleteAfterUpdate(items[1..], updated);
    }
  }

  /** After a deletion, `get-item` with a key of the same type finds nothing:
      `===` and `==` agree when no string meets a number. */
  lemma GetAfterDelete(items: seq<Item>, key: Key)
    requires forall i :: 0 <= i < |items| ==> items[i].id.Str? == key.Str?
    ensures GetItem(DeleteItem(items, key), key).None?
  {
    var d := DeleteItem(items, key);
    forall i | 0 <= i < |d|
      ensures !LooseEquals(d[i].id, key)
    {
      StrictIsLoose(d[i].id, key);
    }
  }

  /** Across types the two comparisons part ways: deleting the number n leaves
      an item whose id is the digit string of n, and `get-item` with n still
      returns it. */
  lemma GetAfterDeleteAcrossTypes(item: Item, n: nat)
    requires item.id.Str? && |item.id.s| > 0 && AllDigits(item.id.s) && DecimalValue(item.id.s) == n
    ensures GetItem(DeleteItem([item], Num(n)), Num(n)) == Some(item)
  {
    assert DeleteItem([item], Num(n)) == [item];
  }

  /** `get-item` on a freshly added item finds it when nothing before it matches. */
  lemma GetAfterAdd(items: seq<Item>, item: Item)
    requires forall i :: 0 <= i < |items| ==> !LooseEquals(items[i].id, item.id)
    ensures GetItem(AddItem(items, item), item.id) == Some(item)
  {
    var a := AddItem(items, item);
    assert LooseEquals(item.id, item.id);
    assert a[|items|] == item;
  }
}

=== FILE: links.dfy ===
/** The identifier helpers of src/telegram/poster.js: the invite-hash and
    username regular expressions and the all-digits test. A regular expression
    of the shape `(?:p1|p2|…)([\w-]+)`, searched with `String.prototype.match`,
    is modelled as its alternatives plus a leftmost search. */
module Links {
  import opened Outcomes
  import opened Text

  const JoinChatPrefix: string := "t.me/joinchat/"
  const PlusPrefix: string := "t.me/+"
  const LinkPrefix: string := "t.me/"

  /** `/(?:t\.me\/(?:joinchat\/|\+))([\w-]+)/`, alternatives in the order they are tried. */
  const InviteAlternatives: seq<string> := [JoinChatPrefix, PlusPrefix]

  /** `/(?:t\.me\/)([\w-]+)/`. */
  const UsernameAlternatives: seq<string> := [LinkPrefix]

  /** Alternative `p` matches at `i`: the literal is there and at least one `[\w-]` follows it. */
  predicate AltMatches(s: string, p: string, i: nat) {
    HasPrefixAt(s, p, i) && i + |p| < |s| && IsWordChar(s[i + |p|])
  }

  /** Where the capture group starts when the pattern is tried at `i`; the
      alternatives are tried in order, as the regex engine backtracks. */
  function CaptureStart(s: string, alts: seq<string>, i: nat): (r: Option<nat>)
    ensures r.None? <==> forall a :: 0 <= a < |alts| ==> !AltMatches(s, alts[a], i)
    ensures r.Some? ==> r.value < |s| && IsWordChar(s[r.value])
    ensures r.Some? ==> exists a :: 0 <= a < |alts| && AltMatches(s, alts[a], i) && r.value == i + |alts[a]|
    decreases |alts|
  {
    if |alts| == 0 then None
    else if AltMatches(s, alts[0], i) then Some(i + |alts[0]|)
    else
      var r := CaptureStart(s, alts[1..], i);
      assert forall a :: 1 <= a < |alts| ==> alts[a] == alts[1..][a - 1];
      r
  }

  predicate MatchesAt(s: string, alts: seq<string>, i: nat) {
    CaptureStart(s, alts, i).Some?
  }

  /** The leftmost position at or after `from` where the pattern matches. */
  function LeftmostFrom(s: string, alts: seq<string>, from: nat): (r: Option<nat>)
    requires from <= |s|
    ensures r.Some? ==> from <= r.value <= |s| && MatchesAt(s, alts, r.value)
    ensures r.Some? ==> forall k :: from <= k < r.value ==> !MatchesAt(s, alts, k)
    ensures r.None? ==> forall k :: from <= k <= |s| ==> !MatchesAt(s, alts, k)
    decreases |s| - from
  {
    if MatchesAt(s, alts, from) then Some(from)
    else if from == |s| then None
    else LeftmostFrom(s, alts, from + 1)
  }

  /** The run of `[\w-]` that the greedy `[\w-]+` takes at `j`. */
  function RunAt(s: string, j: nat): (h: string)
    requires j <= |s|
    ensures |h| == WordRunLength(s, j) && HasPrefixAt(s, h, j)
    ensures forall k :: 0 <= k < |h| ==> IsWordChar(h[k])
  {
    var h := s[j..j + WordRunLength(s, j)];
    assert forall k :: 0 <= k < |h| ==> h[k] == s[j + k];
    h
  }

  /** `s.match(re)?.[1]`: the capture group of the leftmost match. */
  function MatchCapture(s: string, alts: seq<string>): (r: Option<string>)
    ensures r.Some? ==> |r.value| > 0 && forall k :: 0 <= k < |r.value| ==> IsWordChar(r.value[k])
    ensures r.Some? ==> Contains(s, r.value)
    ensures r.None? <==> forall i :: 0 <= i <= |s| ==> !MatchesAt(s, alts, i)
  {
    match LeftmostFrom(s, alts, 0)
    case None => None
    case Some(i) => Some(RunAt(s, CaptureStart(s, alts, i).value))
  }

  /** `extractInviteHash` (poster.js:13-16). */
  function ExtractInviteHash(s: string): (r: Option<string>)
    ensures r.Some? ==> IsHandle(r.value) && Contains(s, r.value)
  {
    MatchCapture(s, InviteAlternatives)
  }

  /** `extractUsername` (poster.js:18-21): the `t.me/` capture, else the input
      with its first `@` removed. */
  function ExtractUsername(s: string): (r: string)
    ensures (IsHandle(r) && Contains(s, r)) || r == RemoveFirst(s, '@')
  {
    match MatchCapture(s, UsernameAlternatives)
    case Some(u) => u
    case None => RemoveFirst(s, '@')
  }

  /** `isNumericId` (poster.js:23-25): `/^\d+$/`. */
  predicate IsNumericId(s: string): (b: bool)
    // A numeric id holds none of the characters that mark the other target forms.
    ensures b ==> |s| > 0 && ':' !in s && '@' !in s && 't' !in s
  {
    |s| > 0 && AllDigits(s)
  }

  // ---------------------------------------------------------------------------
  // Reference reading of the two patterns, written directly over positions.

  /** An invite link starts at `i`: `t.me/joinchat/` or `t.me/+`, then a `[\w-]`. */
  predicate InviteAt(s: string, i: nat) {
    AltMatches(s, JoinChatPrefix, i) || AltMatches(s, PlusPrefix, i)
  }

  /** Where the hash of the invite link at `i` starts. */
  function InviteBodyStart(s: string, i: nat): nat {
    if HasPrefixAt(s, JoinChatPrefix, i) then i + |JoinChatPrefix| else i + |PlusPrefix|
  }

  /** A public link starts at `i`: `t.me/` then a `[\w-]`. */
  predicate UsernameAt(s: string, i: nat) {
    AltMatches(s, LinkPrefix, i)
  }

  /** `h` is the whole run of `[\w-]` that starts at `j`, and it is not empty. */
  predicate MaximalRunAt(s: string, j: nat, h: string) {
    && |h| > 0
    && HasPrefixAt(s, h, j)
    && (forall k :: 0 <= k < |h| ==> IsWordChar(h[k]))
    && (j + |h| == |s| || !IsWordChar(s[j + |h|]))
  }

  lemma InvitePatternMatchesAt(s: string, i: nat)
    ensures MatchesAt(s, InviteAlternatives, i) <==> InviteAt(s, i)
    ensures InviteAt(s, i) ==> CaptureStart(s, InviteAlternatives, i) == Some(InviteBodyStart(s, i))
  {
    assert InviteAlternatives[1..] == [PlusPrefix];
    assert [PlusPrefix][1..] == [];
    var plus := CaptureStart(s, [PlusPrefix], i);
    assert plus.Some? <==> AltMatches(s, PlusPrefix, i);
    assert plus.Some? ==> plus.value == i + |PlusPrefix|;
    PrefixChars(s, PlusPrefix, i);
    PrefixChars(s, JoinChatPrefix, i);
    assert PlusPrefix[5] == '+' && JoinChatPrefix[5] == 'j';
    assert !(HasPrefixAt(s, PlusPrefix, i) && HasPrefixAt(s, JoinChatPrefix, i));
  }

  lemma UsernamePatternMatchesAt(s: string, i: nat)
    ensures MatchesAt(s, UsernameAlternatives, i) <==> UsernameAt(s, i)
    ensures UsernameAt(s, i) ==> CaptureStart(s, UsernameAlternatives, i) == Some(i + |LinkPrefix|)
  {
    assert UsernameAlternatives[1..] == [];
  }

  lemma LeftmostIs(s: string, alts: seq<string>, i: nat)
    requires i <= |s| && MatchesAt(s, alts, i)
    requires forall k :: 0 <= k < i ==> !MatchesAt(s, alts, k)
    ensures LeftmostFrom(s, alts, 0) == Some(i)
  {
    var l := LeftmostFrom(s, alts, 0);
    assert l.Some?;
    assert !(l.value < i);
  }

  lemma RunIsMaximal(s: string, j: nat)
    requires j < |s| && IsWordChar(s[j])
    ensures MaximalRunAt(s, j, RunAt(s, j))
  {
    var h := RunAt(s, j);
    assert h == s[j..j + WordRunLength(s, j)];
    assert |h| > 0;
    assert HasPrefixAt(s, h, j);
    assert j + |h| == |s| || !IsWordChar(s[j + |h|]);
  }

  /** The capture is the run that starts where the leftmost match's literal ends. */
  lemma CaptureOfLeftmost(s: string, alts: seq<string>, i: nat, j: nat)
    requires LeftmostFrom(s, alts, 0) == Some(i) && CaptureStart(s, alts, i) == Some(j)
    ensures j < |s| && MatchCapture(s, alts) == Some(RunAt(s, j))
  {
  }

  /** The capture of the leftmost match is the maximal run after its literal. */
  lemma CaptureIsMaximalRun(s: string, alts: seq<string>, i: nat, j: nat)
    requires i <= |s| && MatchesAt(s, alts, i)
    requires forall k :: 0 <= k < i ==> !MatchesAt(s, alts, k)
    requires CaptureStart(s, alts, i) == Some(j)
    ensures MatchCapture(s, alts).Some?
    ensures MaximalRunAt(s, j, MatchCapture(s, alts).value)
  {
    LeftmostIs(s, alts, i);
    CaptureOfLeftmost(s, alts, i, j);
    RunIsMaximal(s, j);
  }

  /** `extractInviteHash` returns the maximal `[\w-]` run after the leftmost
      `t.me/joinchat/` or `t.me/+` that is followed by one. */
  lemma ExtractInviteHashFound(s: string, i: nat)
    requires i <= |s| && InviteAt(s, i)
    requires forall k :: 0 <= k < i ==> !InviteAt(s, k)
    ensures ExtractInviteHash(s).Some?
    ensures MaximalRunAt(s, InviteBodyStart(s, i), ExtractInviteHash(s).value)
  {
    InvitePatternMatchesAt(s, i);
    forall k | 0 <= k < i
      ensures !MatchesAt(s, InviteAlternatives, k)
    {
      InvitePatternMatchesAt(s, k);
    }
    CaptureIsMaximalRun(s, InviteAlternatives, i, InviteBodyStart(s, i));
  }

  /** `extractInviteHash` returns null exactly when no invite link occurs. */
  lemma ExtractInviteHashAbsent(s: string)
    ensures ExtractInviteHash(s).None? <==> forall i :: 0 <= i <= |s| ==> !InviteAt(s, i)
  {
    forall i | 0 <= i <= |s|
      ensures MatchesAt(s, InviteAlternatives, i) <==> InviteAt(s, i)
    {
      InvitePatternMatchesAt(s, i);
    }
  }

  /** `extractUsername` returns the maximal `[\w-]` run after the leftmost `t.me/`
      that is followed by one. */
  lemma ExtractUsernameFound(s: string, i: nat)
    requires i <= |s| && UsernameAt(s, i)
    requires forall k :: 0 <= k < i ==> !UsernameAt(s, k)
    ensures MaximalRunAt(s, i + |LinkPrefix|, ExtractUsername(s))
  {
    UsernamePatternMatchesAt(s, i);
    forall k | 0 <= k < i
      ensures !MatchesAt(s, UsernameAlternatives, k)
    {
      UsernamePatternMatchesAt(s, k);
    }
    CaptureIsMaximalRun(s, UsernameAlternatives, i, i + |LinkPrefix|);
  }

  /** Without a `t.me/` link, `extractUsername` only drops the first `@`. */
  lemma ExtractUsernameAbsent(s: string)
    requires forall i :: 0 <= i <= |s| ==> !UsernameAt(s, i)
    ensures ExtractUsername(s) == RemoveFirst(s, '@')
  {
    forall i | 0 <= i <= |s|
      ensures !MatchesAt(s, UsernameAlternatives, i)
    {
      UsernamePatternMatchesAt(s, i);
    }
  }

  predicate IsHandle(h: string) {
    |h| > 0 && forall k :: 0 <= k < |h| ==> IsWordChar(h[k])
  }

  /** The only run of `[\w-]` at the end of a string is the whole tail. */
  lemma TailRun(p: string, h: string)
    requires IsHandle(h)
    ensures forall h' :: MaximalRunAt(p + h, |p|, h') ==> h' == h
  {
    var s := p + h;
    assert forall k :: 0 <= k < |h| ==> s[|p| + k] == h[k];
    forall h' | MaximalRunAt(s, |p|, h')
      ensures h' == h
    {
      assert s[|p|..|p| + |h'|] == h';
      assert |h'| <= |h|;
      assert !(|h'| < |h|);
    }
  }

  /** Building an invite link from a hash and extracting it gives the hash back,
      for both link shapes. */
  lemma InviteLinkRoundTrip(hash: string, joinChat: bool)
    requires IsHandle(hash)
    ensures ExtractInviteHash((if joinChat then JoinChatPrefix else PlusPrefix) + hash) == Some(hash)
  {
    var p := if joinChat then JoinChatPrefix else PlusPrefix;
    var s := p + hash;
    assert s[..|p|] == p;
    assert s[|p|] == hash[0];
    assert HasPrefixAt(s, p, 0);
    assert InviteAt(s, 0);
    PrefixChars(s, JoinChatPrefix, 0);
    assert !joinChat ==> s[5] == '+';
    assert InviteBodyStart(s, 0) == |p|;
    ExtractInviteHashFound(s, 0);
    TailRun(p, hash);
  }

  /** Building a public link from a username and extracting it gives the name back. */
  lemma UsernameLinkRoundTrip(name: string)
    requires IsHandle(name)
    ensures ExtractUsername(LinkPrefix + name) == name
  {
    var s := LinkPrefix + name;
    assert s[..|LinkPrefix|] == LinkPrefix;
    assert s[|LinkPrefix|] == name[0];
    assert UsernameAt(s, 0);
    ExtractUsernameFound(s, 0);
    TailRun(LinkPrefix, name);
  }

  /** A string without the letter `t` holds no link of either kind. */
  lemma NoLinkWithoutT(s: string)
    requires 't' !in s
    ensures forall i :: 0 <= i <= |s| ==> !InviteAt(s, i) && !UsernameAt(s, i)
  {
    forall i | 0 <= i <= |s|
      ensures !InviteAt(s, i) && !UsernameAt(s, i)
    {
      PrefixChars(s, LinkPrefix, i);
      PrefixChars(s, PlusPrefix, i);
      PrefixChars(s, JoinChatPrefix, i);
      assert i < |s| ==> s[i] != 't';
    }
  }

  /** Both invite shapes begin with `t.me/`, so a string without `t.me/` holds
      no link of either kind. */
  lemma NoLinkWithoutPrefix(s: string)
    requires !Contains(s, LinkPrefix)
    ensures forall i :: 0 <= i <= |s| ==> !InviteAt(s, i) && !UsernameAt(s, i)
  {
    forall i | 0 <= i <= |s|
      ensures !InviteAt(s, i) && !UsernameAt(s, i)
    {
      assert !HasPrefixAt(s, LinkPrefix, i);
      PrefixChars(s, JoinChatPrefix, i);
      PrefixChars(s, PlusPrefix, i);
      if i + |LinkPrefix| <= |s| {
        assert forall k :: 0 <= k < |LinkPrefix| ==> LinkPrefix[k] == JoinChatPrefix[k] && LinkPrefix[k] == PlusPrefix[k];
        assert exists k :: 0 <= k < |LinkPrefix| && s[i + k] != LinkPrefix[k];
      }
    }
  }

  /** Putting `@` in front adds no `t.me/`. */
  lemma HandleHasNoLink(name: string)
    requires !Contains(name, LinkPrefix)
    ensures !Contains(['@'] + name, LinkPrefix)
  {
    var s := ['@'] + name;
    forall i: nat | i + |LinkPrefix| <= |s|
      ensures !HasPrefixAt(s, LinkPrefix, i)
    {
      PrefixChars(s, LinkPrefix, i);
      assert s[0] == '@';
      if i > 0 {
        assert s[i..i + |LinkPrefix|] == name[i - 1..i - 1 + |LinkPrefix|];
        assert !HasPrefixAt(name, LinkPrefix, i - 1);
      }
    }
  }

  /** `@name` resolves to `name` when `name` holds no `t.me/` link. */
  lemma ExtractUsernameFromHandle(name: string)
    requires !Contains(name, LinkPrefix)
    ensures ExtractUsername(['@'] + name) == name
  {
    var s := ['@'] + name;
    forall i | 0 <= i <= |s|
      ensures !UsernameAt(s, i)
    {
      PrefixChars(s, LinkPrefix, i);
      assert s[0] == '@';
      if i > 0 && i + |LinkPrefix| <= |s| {
        assert s[i..i + |LinkPrefix|] == name[i - 1..i - 1 + |LinkPrefix|];
        assert !HasPrefixAt(name, LinkPrefix, i - 1);
      }
    }
    ExtractUsernameAbsent(s);
    assert s[..0] == [];
    assert s[1..] == name;
  }
}

=== FILE: membership.dfy ===
/** `ensureMembership` of src/telegram/poster.js: how a configured target id is
    classified, and the decision tree over the outcomes of the RPC calls it
    issues. Each RPC is an input: the reply the server gives to that call. */
module Membership {
  import opened Outcomes
  import opened Text
  import opened Links

  /** A chat object as the server returns it. */
  datatype Chat = Chat(id: int, accessHash: string)

  /** What `ensureMembership` hands back as `peer`: a chat object from the
      server, or an `inputPeerChannel` built locally from an id:hash pair. */
  datatype Peer = ChatPeer(chat: Chat) | InputPeerChannel(channelId: nat, accessHash: string)

  /** The `inputChannel` sent to `channels.getParticipant` and `channels.joinChannel`. */
  datatype InputChannel = InputChannel(channelId: int, accessHash: string)

  /** The three shapes a target id can take. */
  datatype TargetRef =
    | InviteRef(hash: string)
    | PairRef(channelId: nat, accessHash: string)
    | UsernameRef(username: string)

  /** The reply to one RPC: its payload, or the error's `error_message`. */
  datatype Reply<+T> = Done(value: T) | Failed(errorMessage: string)

  /** The server's reply to each call `ensureMembership` may issue. Each kind of
      call is issued at most once per run, so one reply per kind is enough. */
  datatype Replies = Replies(
    importChatInvite: Reply<seq<Chat>>,
    checkChatInvite: Reply<Chat>,
    resolveUsername: Reply<seq<Chat>>,
    getParticipant: Reply<()>,
    joinChannel: Reply<()>)

  datatype Call =
    | ImportChatInvite(hash: string)
    | CheckChatInvite(hash: string)
    | ResolveUsername(username: string)
    | GetParticipant(channel: InputChannel)
    | JoinChannel(channel: InputChannel)

  /** One run of `ensureMembership`: the peer (or the error that ended the run)
      and the calls issued, in order. */
  datatype Attempt = Attempt(result: Result<Peer>, calls: seq<Call>)

  const AlreadyParticipant: string := "USER_ALREADY_PARTICIPANT"
  const NotParticipant: string := "USER_NOT_PARTICIPANT"

  /** Classification, in the order of poster.js:29-31, 46-70: an invite hash
      first; else the username (or id) is split on `:`; two all-digit parts
      are a channel id and access hash; a lone all-digit id is refused; anything
      else is a username. */
  function Classify(s: string): (r: Result<TargetRef>)
    ensures r.Ok? && r.value.InviteRef? <==> ExtractInviteHash(s).Some?
    ensures r.Ok? && r.value.InviteRef? ==> Some(r.value.hash) == ExtractInviteHash(s)
    ensures r.Err? ==> r.failure == NumericIdWithoutHash && IsNumericId(ExtractUsername(s))
    ensures r.Ok? && r.value.UsernameRef? ==> r.value.username == ExtractUsername(s) && !IsNumericId(r.value.username)
    ensures r.Ok? && r.value.PairRef? ==>
      && IsNumericId(r.value.accessHash)
      && exists id :: IsNumericId(id) && ExtractUsername(s) == id + [':'] + r.value.accessHash
                   && r.value.channelId == DecimalValue(id)
  {
    match ExtractInviteHash(s)
    case Some(h) => Ok(InviteRef(h))
    case None =>
      var name := ExtractUsername(s);
      var parts := Split(name, ':');
      if |parts| == 2 && IsNumericId(parts[0]) && IsNumericId(parts[1]) then
        assert Join(parts, ':') == parts[0] + [':'] + Join(parts[1..], ':');
        Ok(PairRef(DecimalValue(parts[0]), parts[1]))
      else if IsNumericId(name) then Err(NumericIdWithoutHash)
      else Ok(UsernameRef(name))
  }

  /** An all-digit string holds no `t`, `@` or `:`. */
  lemma DigitsHaveNoMarkers(s: string)
    requires AllDigits(s)
    ensures 't' !in s && '@' !in s && ':' !in s
  {
    assert forall i :: 0 <= i < |s| ==> IsDigit(s[i]);
  }

  /** `id:hash` with both parts numeric is classified as a pair whose channel id
      is the decimal value of `id` and whose access hash is `hash` verbatim. */
  lemma PairClassified(id: string, hash: string)
    requires IsNumericId(id) && IsNumericId(hash)
    ensures Classify(id + [':'] + hash) == Ok(PairRef(DecimalValue(id), hash))
  {
    var s := id + [':'] + hash;
    DigitsHaveNoMarkers(id);
    DigitsHaveNoMarkers(hash);
    assert 't' !in s && '@' !in s;
    NoLinkWithoutT(s);
    ExtractInviteHashAbsent(s);
    ExtractUsernameAbsent(s);
    SplitInTwo(id, hash, ':');
  }

  /** Whatever spelling the target takes, a username part of the form `id:hash`
      with both sides numeric is a pair: `@1:2` is the channel 1 with hash "2". */
  lemma PairFormClassified(s: string, id: string, hash: string)
    requires ExtractInviteHash(s).None?
    requires IsNumericId(id) && IsNumericId(hash) && ExtractUsername(s) == id + [':'] + hash
    ensures Classify(s) == Ok(PairRef(DecimalValue(id), hash))
  {
    DigitsHaveNoMarkers(id);
    DigitsHaveNoMarkers(hash);
    SplitInTwo(id, hash, ':');
  }

  /** The pair form built from a channel id round-trips through classification. */
  lemma PairRoundTrip(channelId: nat, hash: string)
    requires IsNumericId(hash)
    ensures Classify(DecimalString(channelId) + [':'] + hash) == Ok(PairRef(channelId, hash))
  {
    PairClassified(DecimalString(channelId), hash);
  }

  /** An id:hash target issues no username lookup and no invite import: only
      the participant check and, at most, the join. */
  lemma PairTargetNeverResolves(id: string, hash: string, replies: Replies)
    requires IsNumericId(id) && IsNumericId(hash)
    ensures forall c :: c in EnsureMembership(id + [':'] + hash, replies).calls ==>
      c == GetParticipant(InputChannel(DecimalValue(id), hash)) || c == JoinChannel(InputChannel(DecimalValue(id), hash))
  {
    PairClassified(id, hash);
  }

  /** A bare numeric id is refused. */
  lemma BareNumericIdRefused(s: string)
    requires IsNumericId(s)
    ensures Classify(s) == Err(NumericIdWithoutHash)
  {
    DigitsHaveNoMarkers(s);
    NoLinkWithoutT(s);
    ExtractInviteHashAbsent(s);
    ExtractUsernameAbsent(s);
    assert Split(s, ':') == [s];
  }

  /** `@name` is a username whenever `name` is not all digits, holds no
      `:` and no `t.me/` link. */
  lemma HandleClassified(name: string)
    requires !IsNumericId(name) && ':' !in name && !Contains(name, LinkPrefix)
    ensures Classify(['@'] + name) == Ok(UsernameRef(name))
  {
    var s := ['@'] + name;
    HandleHasNoLink(name);
    NoLinkWithoutPrefix(s);
    ExtractInviteHashAbsent(s);
    ExtractUsernameFromHandle(name);
    assert Split(name, ':') == [name];
  }

  /** The error message a call drew, if it failed. */
  function ErrorOf(c: Call, replies: Replies): Option<string> {
    match c
    case ImportChatInvite(_) => if replies.importChatInvite.Failed? then Some(replies.importChatInvite.errorMessage) else None
    case CheckChatInvite(_) => if replies.checkChatInvite.Failed? then Some(replies.checkChatInvite.errorMessage) else None
    case ResolveUsername(_) => if replies.resolveUsername.Failed? then Some(replies.resolveUsername.errorMessage) else None
    case GetParticipant(_) => if replies.getParticipant.Failed? then Some(replies.getParticipant.errorMessage) else None
    case JoinChannel(_) => if replies.joinChannel.Failed? then Some(replies.joinChannel.errorMessage) else None
  }

  /** A call whose outcome lets the run continue: it succeeded, or it failed
      with the one message its handler recovers from. */
  predicate Recovered(c: Call, replies: Replies) {
    match ErrorOf(c, replies)
    case None => true
    case Some(msg) =>
      (c.ImportChatInvite? && Contains(msg, AlreadyParticipant)) || (c.GetParticipant? && msg == NotParticipant)
  }

  /** The participant check ends in membership: the check answers, or it
      answers `USER_NOT_PARTICIPANT` and the join succeeds. */
  predicate ParticipantConfirmed(replies: Replies) {
    replies.getParticipant.Done? || (replies.getParticipant == Failed(NotParticipant) && replies.joinChannel.Done?)
  }

  /** Membership check of poster.js:84-100: `channels.getParticipant`; on
      `USER_NOT_PARTICIPANT` exactly one `channels.joinChannel`; the same peer is
      returned either way; any other error is passed on. */
  function CheckParticipant(ch: InputChannel, peer: Peer, prior: seq<Call>, replies: Replies): (m: Attempt)
    ensures m.calls == prior + (if replies.getParticipant == Failed(NotParticipant)
                                then [GetParticipant(ch), JoinChannel(ch)] else [GetParticipant(ch)])
    ensures m.result.Ok? ==> m.result.value == peer
    ensures m.result.Ok? <==> ParticipantConfirmed(replies)
    ensures m.result.Err? ==>
      m.result.failure.RemoteFailure? && Some(m.result.failure.message) == ErrorOf(m.calls[|m.calls| - 1], replies)
  {
    var get := GetParticipant(ch);
    match replies.getParticipant
    case Done(_) => Attempt(Ok(peer), prior + [get])
    case Failed(msg) =>
      if msg == NotParticipant then
        var calls := prior + [get, JoinChannel(ch)];
        match replies.joinChannel
        case Done(_) => Attempt(Ok(peer), calls)
        case Failed(msg2) => Attempt(Err(RemoteFailure(msg2)), calls)
      else Attempt(Err(RemoteFailure(msg)), prior + [get])
  }

  /** Invite branch of poster.js:31-44: import the invite; on an error whose
      message includes `USER_ALREADY_PARTICIPANT`, check the invite and take its
      chat; any other error is passed on. */
  function JoinByInvite(h: string, replies: Replies): (m: Attempt)
    ensures m.calls == (if replies.importChatInvite.Failed? && Contains(replies.importChatInvite.errorMessage, AlreadyParticipant)
                        then [ImportChatInvite(h), CheckChatInvite(h)] else [ImportChatInvite(h)])
    ensures m.result.Ok? && |m.calls| == 2 ==>
      replies.checkChatInvite.Done? && m.result.value == ChatPeer(replies.checkChatInvite.value)
    ensures m.result.Ok? && |m.calls| == 1 ==>
      replies.importChatInvite.Done? && |replies.importChatInvite.value| > 0
      && m.result.value == ChatPeer(replies.importChatInvite.value[0])
    // The invite path succeeds exactly when the import returns a chat, or when
    // it reports an existing membership and the invite check answers.
    ensures m.result.Ok? <==>
      || (replies.importChatInvite.Done? && |replies.importChatInvite.value| > 0)
      || (&& replies.importChatInvite.Failed? && Contains(replies.importChatInvite.errorMessage, AlreadyParticipant)
          && replies.checkChatInvite.Done?)
    ensures m.result.Err? && m.result.failure.RemoteFailure? ==>
      Some(m.result.failure.message) == ErrorOf(m.calls[|m.calls| - 1], replies)
    ensures m.result.Err? && !m.result.failure.RemoteFailure? ==>
      m.result.failure == NoChatReturned && replies.importChatInvite == Done([])
  {
    var imp := ImportChatInvite(h);
    match replies.importChatInvite
    case Done(chats) =>
      if |chats| == 0 then Attempt(Err(NoChatReturned), [imp])
      else Attempt(Ok(ChatPeer(chats[0])), [imp])
    case Failed(msg) =>
      if Contains(msg, AlreadyParticipant) then
        var chk := CheckChatInvite(h);
        match replies.checkChatInvite
        case Done(chat) => Attempt(Ok(ChatPeer(chat)), [imp, chk])
        case Failed(msg2) => Attempt(Err(RemoteFailure(msg2)), [imp, chk])
      else Attempt(Err(RemoteFailure(msg)), [imp])
  }

  /** The RPC decision tree of `ensureMembership` for an already classified target. */
  function JoinTarget(t: TargetRef, replies: Replies): (m: Attempt)
    // An invite is imported, then checked only when already a participant.
    ensures t.InviteRef? ==> |m.calls| > 0 && m.calls[0] == ImportChatInvite(t.hash)
    ensures t.InviteRef? ==> m == JoinByInvite(t.hash, replies)
    // The id:hash form never resolves a username: it checks and joins only, and its peer is built locally.
    ensures t.PairRef? ==>
      var ch := InputChannel(t.channelId, t.accessHash);
      && (forall c :: c in m.calls ==> c == GetParticipant(ch) || c == JoinChannel(ch))
      && (m.result.Ok? ==> m.result.value == InputPeerChannel(t.channelId, t.accessHash))
      && (m.result.Ok? <==> ParticipantConfirmed(replies))
    // A username is resolved first and the resolved chat is the peer.
    ensures t.UsernameRef? ==>
      && |m.calls| > 0 && m.calls[0] == ResolveUsername(t.username)
      && (m.result.Ok? ==> replies.resolveUsername.Done? && |replies.resolveUsername.value| > 0
                           && m.result.value == ChatPeer(replies.resolveUsername.value[0]))
      && (m.result.Ok? <==> replies.resolveUsername.Done? && |replies.resolveUsername.value| > 0
                            && ParticipantConfirmed(replies))
    // The check and the join address the resolved chat.
    ensures t.UsernameRef? && replies.resolveUsername.Done? && |replies.resolveUsername.value| > 0 ==>
      var ch := InputChannel(replies.resolveUsername.value[0].id, replies.resolveUsername.value[0].accessHash);
      forall c :: c in m.calls[1..] ==> c == GetParticipant(ch) || c == JoinChannel(ch)
  {
    match t
    case InviteRef(h) => JoinByInvite(h, replies)
    case PairRef(id, hash) => CheckParticipant(InputChannel(id, hash), InputPeerChannel(id, hash), [], replies)
    case UsernameRef(name) =>
      var resolve := ResolveUsername(name);
      match replies.resolveUsername
      case Failed(msg) => Attempt(Err(RemoteFailure(msg)), [resolve])
      case Done(chats) =>
        // `resolved.chats[0].id` throws when the list is empty.
        if |chats| == 0 then Attempt(Err(NoChatReturned), [resolve])
        else CheckParticipant(InputChannel(chats[0].id, chats[0].accessHash), ChatPeer(chats[0]), [resolve], replies)
  }

  /** `ensureMembership` (poster.js:27-106): classify, then run the decision tree. */
  function EnsureMembership(s: string, replies: Replies): (m: Attempt)
    // A refused id is refused before any RPC is issued.
    ensures Classify(s).Err? ==> m == Attempt(Err(Classify(s).failure), [])
    ensures Classify(s).Ok? ==> |m.calls| > 0
    // Any other id runs the decision tree of its classified target.
    ensures Classify(s).Ok? ==> m == JoinTarget(Classify(s).value, replies)
  {
    match Classify(s)
    case Err(f) => Attempt(Err(f), [])
    case Ok(t) => JoinTarget(t, replies)
  }

  /** The decision tree as a whole: every call but the last either succeeded
      or failed with the one message its handler recovers from; a last call that
      failed otherwise is passed on with its own message; and a success ends on
      a successful call. */
  lemma MembershipTrace(t: TargetRef, replies: Replies, m: Attempt)
    requires m == JoinTarget(t, replies)
    ensures forall i :: 0 <= i < |m.calls| - 1 ==> Recovered(m.calls[i], replies)
    ensures |m.calls| > 0 && !Recovered(m.calls[|m.calls| - 1], replies) ==>
      m.result == Err(RemoteFailure(ErrorOf(m.calls[|m.calls| - 1], replies).value))
    ensures m.result.Ok? ==> |m.calls| > 0 && ErrorOf(m.calls[|m.calls| - 1], replies).None?
  {
    match t
    case InviteRef(h) =>
      assert m.calls == [ImportChatInvite(h)] || m.calls == [ImportChatInvite(h), CheckChatInvite(h)];
    case PairRef(id, hash) =>
      var ch := InputChannel(id, hash);
      assert m.calls == [GetParticipant(ch)] || m.calls == [GetParticipant(ch), JoinChannel(ch)];
    case UsernameRef(name) =>
      if replies.resolveUsername.Failed? || |replies.resolveUsername.value| == 0 {
        assert m.calls == [ResolveUsername(name)];
      } else {
        var chat := replies.resolveUsername.value[0];
        var ch := InputChannel(chat.id, chat.accessHash);
        assert m.calls == [ResolveUsername(name), GetParticipant(ch)]
            || m.calls == [ResolveUsername(name), GetParticipant(ch), JoinChannel(ch)];
      }
  }

  /** There is at most one join, and it comes right after a participant
      check that answered `USER_NOT_PARTICIPANT`. */
  lemma AtMostOneJoin(t: TargetRef, replies: Replies, m: Attempt)
    requires m == JoinTarget(t, replies)
    ensures forall i, j :: 0 <= i < j < |m.calls| && m.calls[i].JoinChannel? ==> !m.calls[j].JoinChannel?
    ensures forall i :: 0 <= i < |m.calls| && m.calls[i].JoinChannel? ==>
      i > 0 && m.calls[i - 1].GetParticipant? && replies.getParticipant == Failed(NotParticipant)
  {
    var notIn := replies.getParticipant == Failed(NotParticipant);
    match t
    case InviteRef(h) =>
      if replies.importChatInvite.Failed? && Contains(replies.importChatInvite.errorMessage, AlreadyParticipant) {
        assert m.calls == [ImportChatInvite(h), CheckChatInvite(h)];
      } else {
        assert m.calls == [ImportChatInvite(h)];
      }
    case PairRef(id, hash) =>
      var ch := InputChannel(id, hash);
      if notIn {
        assert m.calls == [GetParticipant(ch), JoinChannel(ch)];
      } else {
        assert m.calls == [GetParticipant(ch)];
      }
    case UsernameRef(name) =>
      if replies.resolveUsername.Failed? || |replies.resolveUsername.value| == 0 {
        assert m.calls == [ResolveUsername(name)];
      } else {
        var chat := replies.resolveUsername.value[0];
        var ch := InputChannel(chat.id, chat.accessHash);
        if notIn {
          assert m.calls == [ResolveUsername(name), GetParticipant(ch), JoinChannel(ch)];
        } else {
          assert m.calls == [ResolveUsername(name), GetParticipant(ch)];
        }
      }
  }

  /** The channel id `sendMessage` and `reactToMessage` read as `peer.id`, as
      written: a chat object has one, but the `inputPeerChannel` built for the
      id:hash form carries `channel_id` only, so `peer.id` is undefined. */
  function PeerIdAsWritten(p: Peer): (r: Option<int>)
    ensures r.Some? <==> p.ChatPeer?
  {
    match p
    case ChatPeer(chat) => Some(chat.id)
    case InputPeerChannel(_, _) => None
  }

  /** The channel id evidently meant: the chat's id, or the parsed channel id. */
  function PeerChannelId(p: Peer): int {
    match p
    case ChatPeer(chat) => chat.id
    case InputPeerChannel(id, _) => id
  }

  function PeerAccessHash(p: Peer): string {
    match p
    case ChatPeer(chat) => chat.accessHash
    case InputPeerChannel(_, hash) => hash
  }

  /** As written, the id:hash target `1:2` yields a peer whose `id` is undefined,
      although membership succeeds. */
  lemma PairPeerLacksId(replies: Replies)
    requires replies.getParticipant.Done?
    ensures EnsureMembership("1:2", replies).result.Ok?
    ensures PeerIdAsWritten(EnsureMembership("1:2", replies).result.value).None?
  {
    assert "1:2" == "1" + [':'] + "2";
    PairClassified("1", "2");
  }

  /** Corrected: the peer of an id:hash target addresses the parsed channel id
      with the given access hash. */
  lemma PairPeerAddressesChannel(id: string, hash: string, replies: Replies)
    requires IsNumericId(id) && IsNumericId(hash)
    ensures replies.getParticipant.Done? ==> EnsureMembership(id + [':'] + hash, replies).result.Ok?
    ensures EnsureMembership(id + [':'] + hash, replies).result.Ok? ==>
      PeerChannelId(EnsureMembership(id + [':'] + hash, replies).result.value) == DecimalValue(id)
    ensures EnsureMembership(id + [':'] + hash, replies).result.Ok? ==>
      PeerAccessHash(EnsureMembership(id + [':'] + hash, replies).result.value) == hash
  {
    PairClassified(id, hash);
  }
}

=== FILE: outcomes.dfy ===
/** Failure-carrying results shared by every part of the model. The source reports
    failures by throwing; each kind of throw it can reach is one `Failure`. */
module Outcomes {

  datatype Option<+T> = None | Some(value: T)

  /** Why an operation failed. */
  datatype Failure =
    | RemoteFailure(message: string)   // an RPC error object, passed on unchanged
    | NumericIdWithoutHash             // a bare numeric id given where "channel_id:access_hash" is required
    | NoChatReturned                   // the server's reply held no chat where the code reads `chats[0]`
    | NotAString                       // a target id that is not a string (`.match` is not a function)
    | NoLinkedChat                     // the channel has no `linked_chat_id`
    | LinkedChatNotFound               // `linked_chat_id` names no chat of the reply
    | NoDiscussionMessage              // no forwarded copy of the post in the discussion group
    | NoValidMessages                  // the history holds no real message to act on
    | RandomMessageNotFound            // the random draw fell outside the candidates
    | UnsupportedTarget(marker: string)

  datatype Result<+T> = Ok(value: T) | Err(failure: Failure)
}

=== FILE: poster.dfy ===
/** The actions of src/telegram/poster.js that the sweep runs — `sendMessage`
    and `reactToMessage` — and the order `processGroups` runs them in. Every
    server reply is an input; `r` is the value `Math.random()` returns. */
module Poster {
  import opened Outcomes
  import opened Seqs
  import opened Text
  import opened Links
  import opened Membership
  import opened Selection
  import opened Items

  /** A string field is truthy when it is present and not empty. */
  predicate Truthy(s: Option<string>) {
    s.Some? && |s.value| > 0
  }

  /** The `messages.sendMessage` request: peer, text and, when a target was
      given, the message replied to. */
  datatype SendRequest = SendRequest(channelId: int, accessHash: string, message: string, replyTo: Option<int>)

  /** The `messages.sendReaction` request. */
  datatype ReactionRequest = ReactionRequest(channelId: int, accessHash: string, msgId: int, emoticon: string)

  /** How an action ends: the request the server accepted, or the error that
      was caught and logged. Neither action lets an error escape. */
  datatype Outcome<+T> = Delivered(request: T) | Logged(failure: Failure)

  /** The server's replies seen by one action: those of `ensureMembership`,
      then `messages.getHistory`, then the final send or reaction. */
  datatype ActionReplies = ActionReplies(membership: Replies, history: Reply<seq<Message>>, send: Reply<()>)

  /** `ensureMembership` runs `.match` on the id, which throws for anything but a string. */
  function GroupName(id: Key): (r: Result<string>)
    ensures r.Ok? <==> id.Str?
    ensures r.Ok? ==> r.value == id.s
  {
    match id
    case Str(s) => Ok(s)
    case Num(_) => Err(NotAString)
  }

  /** `sendMessage` (poster.js:148-199). */
  function SendMessage(id: Key, message: string, target: Option<string>, rs: ActionReplies, r: real): (o: Outcome<SendRequest>)
    requires 0.0 <= r < 1.0
    // Whatever is sent carries the configured text to the joined peer.
    ensures o.Delivered? ==>
      && id.Str? && EnsureMembership(id.s, rs.membership).result.Ok?
      && var peer := EnsureMembership(id.s, rs.membership).result.value;
      && o.request.channelId == PeerChannelId(peer) && o.request.accessHash == PeerAccessHash(peer)
      && o.request.message == message
    // A failed membership is logged and nothing is sent.
    ensures id.Str? && EnsureMembership(id.s, rs.membership).result.Err? ==>
      o == Logged(EnsureMembership(id.s, rs.membership).result.failure)
    // Without a target no reply is set.
    ensures o.Delivered? && !Truthy(target) ==> o.request.replyTo.None?
    // With a target the reply goes to a valid message of the fetched history.
    ensures o.Delivered? && Truthy(target) ==>
      && rs.history.Done? && o.request.replyTo.Some?
      && exists i :: 0 <= i < |ValidMessages(rs.history.value)| && ValidMessages(rs.history.value)[i].id == o.request.replyTo.value
    ensures o.Delivered? && Truthy(target) && target.value == "$" ==>
      o.request.replyTo == Some(ValidMessages(rs.history.value)[0].id)
    ensures o.Delivered? && Truthy(target) ==> target.value == "$" || target.value == "*"
    ensures o.Delivered? && Truthy(target) ==>
      PickTarget(rs.history.value, target.value, r).Ok?
      && o.request.replyTo == Some(PickTarget(rs.history.value, target.value, r).value.id)
    // A numeric id throws in `.match` before any call.
    ensures id.Num? ==> o == Logged(NotAString)
    // Once joined, the first later step that fails is the one logged; when
    // none fails the message is sent.
    ensures id.Str? && EnsureMembership(id.s, rs.membership).result.Ok? ==>
      if Truthy(target) && rs.history.Failed? then o == Logged(RemoteFailure(rs.history.errorMessage))
      else if Truthy(target) && |ValidMessages(rs.history.value)| == 0 then o == Logged(NoValidMessages)
      else if Truthy(target) && target.value != "$" && target.value != "*" then o == Logged(UnsupportedTarget(target.value))
      else if rs.send.Failed? then o == Logged(RemoteFailure(rs.send.errorMessage))
      else o.Delivered?
  {
    match GroupName(id)
    case Err(f) => Logged(f)
    case Ok(g) =>
      var m := EnsureMembership(g, rs.membership);
      match m.result
      case Err(f) => Logged(f)
      case Ok(peer) =>
        var replyTo: Result<Option<int>> :=
          if !Truthy(target) then Ok(None)
          else match rs.history
            case Failed(msg) => Err(RemoteFailure(msg))
            case Done(h) =>
              match PickTarget(h, target.value, r)
              case Err(f) => Err(f)
              case Ok(msg) => Ok(Some(msg.id));
        match replyTo
        case Err(f) => Logged(f)
        case Ok(to) =>
          match rs.send
          case Failed(msg) => Logged(RemoteFailure(msg))
          case Done(_) => Delivered(SendRequest(PeerChannelId(peer), PeerAccessHash(peer), message, to))
  }

  /** `reactToMessage` (poster.js:201-239). */
  function ReactToMessage(id: Key, emoticon: string, target: string, rs: ActionReplies, r: real): (o: Outcome<ReactionRequest>)
    requires 0.0 <= r < 1.0
    ensures o.Delivered? ==>
      && id.Str? && EnsureMembership(id.s, rs.membership).result.Ok?
      && var peer := EnsureMembership(id.s, rs.membership).result.value;
      && o.request.channelId == PeerChannelId(peer) && o.request.accessHash == PeerAccessHash(peer)
      && o.request.emoticon == emoticon
    ensures id.Str? && EnsureMembership(id.s, rs.membership).result.Err? ==>
      o == Logged(EnsureMembership(id.s, rs.membership).result.failure)
    // The reaction lands on a valid message of the fetched history.
    ensures o.Delivered? ==>
      && rs.history.Done? && (target == "$" || target == "*")
      && exists i :: 0 <= i < |ValidMessages(rs.history.value)| && ValidMessages(rs.history.value)[i].id == o.request.msgId
    ensures o.Delivered? && target == "$" ==> o.request.msgId == ValidMessages(rs.history.value)[0].id
    // An unknown marker is refused once there is something to pick from.
    ensures o.Delivered? ==>
      PickTarget(rs.history.value, target, r).Ok? && o.request.msgId == PickTarget(rs.history.value, target, r).value.id
    ensures id.Num? ==> o == Logged(NotAString)
    // Once joined, the first later step that fails is the one logged; when
    // none fails the reaction is sent.
    ensures id.Str? && EnsureMembership(id.s, rs.membership).result.Ok? ==>
      if rs.history.Failed? then o == Logged(RemoteFailure(rs.history.errorMessage))
      else if |ValidMessages(rs.history.value)| == 0 then o == Logged(NoValidMessages)
      // An unknown marker is refused once there is something to pick from.
      else if target != "$" && target != "*" then o == Logged(UnsupportedTarget(target))
      else if rs.send.Failed? then o == Logged(RemoteFailure(rs.send.errorMessage))
      else o.Delivered?
  {
    match GroupName(id)
    case Err(f) => Logged(f)
    case Ok(g) =>
      var m := EnsureMembership(g, rs.membership);
      match m.result
      case Err(f) => Logged(f)
      case Ok(peer) =>
        match rs.history
        case Failed(msg) => Logged(RemoteFailure(msg))
        case Done(h) =>
          match PickTarget(h, target, r)
          case Err(f) => Logged(f)
          case Ok(msg) =>
            match rs.send
            case Failed(msg2) => Logged(RemoteFailure(msg2))
            case Done(_) => Delivered(ReactionRequest(PeerChannelId(peer), PeerAccessHash(peer), msg.id, emoticon))
  }

  /** A reaction and a reply with the same marker, seeing the same replies and
      the same draw, land on the same message of the same peer: both actions
      share the join and the selection. */
  lemma ReactionMatchesReply(id: Key, message: string, emoticon: string, target: string, rs: ActionReplies, r: real)
    requires 0.0 <= r < 1.0 && |target| > 0
    ensures ReactToMessage(id, emoticon, target, rs, r).Delivered? <==> SendMessage(id, message, Some(target), rs, r).Delivered?
    ensures ReactToMessage(id, emoticon, target, rs, r).Delivered? ==>
      var reaction := ReactToMessage(id, emoticon, target, rs, r).request;
      var reply := SendMessage(id, message, Some(target), rs, r).request;
      && reply.replyTo == Some(reaction.msgId)
      && reaction.channelId == reply.channelId && reaction.accessHash == reply.accessHash
  {
  }

  /** Corrected reading of the id:hash finding: a message sent to an
      `id:hash` target addresses the parsed channel id with the given hash. */
  lemma PairTargetAddressesChannel(id: string, hash: string, message: string, target: Option<string>, rs: ActionReplies, r: real)
    requires IsNumericId(id) && IsNumericId(hash) && 0.0 <= r < 1.0
    ensures rs.membership.getParticipant.Done? && rs.send.Done? && target.None? ==>
      SendMessage(Str(id + [':'] + hash), message, target, rs, r).Delivered?
    ensures SendMessage(Str(id + [':'] + hash), message, target, rs, r).Delivered? ==>
      SendMessage(Str(id + [':'] + hash), message, target, rs, r).request.channelId == DecimalValue(id)
    ensures SendMessage(Str(id + [':'] + hash), message, target, rs, r).Delivered? ==>
      SendMessage(Str(id + [':'] + hash), message, target, rs, r).request.accessHash == hash
  {
    PairPeerAddressesChannel(id, hash, rs.membership);
  }

  /** One step of the sweep: a comment (with its target) or a reaction (with
      its marker), tagged with the position of its item in the list. */
  datatype Action =
    | Comment(group: nat, id: Key, text: string, prompt: Option<string>, target: Option<string>)
    | React(group: nat, id: Key, emoticon: string, marker: string)

  /** `target || '*'`. */
  function ReactionTarget(target: Option<string>): (t: string)
    ensures Truthy(target) ==> t == target.value
    ensures !Truthy(target) ==> t == "*"
  {
    if Truthy(target) then target.value else "*"
  }

  /** The body of the sweep loop for one item (poster.js:403-406): comment if
      there is a comment, then react if there is a reaction. */
  function GroupActions(item: Item, index: nat): (r: seq<Action>)
    ensures |r| <= 2
    ensures forall i :: 0 <= i < |r| ==> r[i].group == index && r[i].id == item.id
    ensures (exists i :: 0 <= i < |r| && r[i].Comment?) <==> Truthy(item.comment)
    ensures (exists i :: 0 <= i < |r| && r[i].React?) <==> Truthy(item.reaction)
    // The comment comes first.
    ensures forall i, j :: 0 <= i < j < |r| ==> r[i].Comment? && r[j].React?
    ensures Truthy(item.comment) ==> r[0] == Comment(index, item.id, item.comment.value, item.prompt, item.target)
    ensures Truthy(item.reaction) ==> r[|r| - 1] == React(index, item.id, item.reaction.value, ReactionTarget(item.target))
  {
    var r := (if Truthy(item.comment) then [Comment(index, item.id, item.comment.value, item.prompt, item.target)] else [])
      + (if Truthy(item.reaction) then [React(index, item.id, item.reaction.value, ReactionTarget(item.target))] else []);
    assert Truthy(item.comment) ==> r[0].Comment?;
    assert Truthy(item.reaction) ==> r[|r| - 1].React?;
    r
  }

  /** The actions of one pass over the items, starting at position `start`. */
  function SweepFrom(items: seq<Item>, start: nat): (plan: seq<Action>)
    ensures forall i :: 0 <= i < |plan| ==> start <= plan[i].group < start + |items|
    // Items are handled in list order; within an item the comment precedes the reaction.
    ensures forall i, j :: 0 <= i < j < |plan| ==>
      plan[i].group < plan[j].group || (plan[i].group == plan[j].group && plan[i].Comment? && plan[j].React?)
    decreases |items|
  {
    if |items| == 0 then []
    else GroupActions(items[0], start) + SweepFrom(items[1..], start + 1)
  }

  /** One pass of `processGroups` over the list read for it (poster.js:400-412). */
  function Sweep(items: seq<Item>): seq<Action> {
    SweepFrom(items, 0)
  }

  function InGroup(k: nat): Action -> bool {
    (a: Action) => a.group == k
  }

  /** The actions of the sweep that belong to item `k` are exactly those its
      loop body produces: every item is handled, and only once. */
  lemma {:induction false} SweepFromGroup(items: seq<Item>, start: nat, k: nat)
    requires start <= k < start + |items|
    ensures Filter(SweepFrom(items, start), InGroup(k)) == GroupActions(items[k - start], k)
    decreases |items|
  {
    var head := GroupActions(items[0], start);
    var tail := SweepFrom(items[1..], start + 1);
    assert SweepFrom(items, start) == head + tail;
    FilterAppend(head, tail, InGroup(k));
    if k == start {
      forall i | 0 <= i < |head|
        ensures InGroup(k)(head[i])
      {
      }
      FilterAllPass(head, InGroup(k));
      forall i | 0 <= i < |tail|
        ensures !InGroup(k)(tail[i])
      {
      }
      FilterNonePass(tail, InGroup(k));
    } else {
      forall i | 0 <= i < |head|
        ensures !InGroup(k)(head[i])
      {
      }
      FilterNonePass(head, InGroup(k));
      SweepFromGroup(items[1..], start + 1, k);
      assert items[1..][k - (start + 1)] == items[k - start];
    }
  }

  lemma SweepGroup(items: seq<Item>, k: nat)
    requires k < |items|
    ensures Filter(Sweep(items), InGroup(k)) == GroupActions(items[k], k)
  {
    SweepFromGroup(items, 0, k);
  }

  /** What one action did. */
  datatype Effect = Commented(sent: Outcome<SendRequest>) | Reacted(reacted: Outcome<ReactionRequest>)

  /** The server's replies and the random draw one action sees. */
  datatype Conditions = Conditions(replies: ActionReplies, draw: real)

  predicate DrawsInRange(env: seq<Conditions>) {
    forall i :: 0 <= i < |env| ==> 0.0 <= env[i].draw < 1.0
  }

  /** One action of the sweep: a comment is sent with its own target, a
      reaction with its marker. */
  function Perform(a: Action, c: Conditions): (e: Effect)
    requires 0.0 <= c.draw < 1.0
    ensures a.Comment? ==> e == Commented(SendMessage(a.id, a.text, a.target, c.replies, c.draw))
    ensures a.React? ==> e == Reacted(ReactToMessage(a.id, a.emoticon, a.marker, c.replies, c.draw))
  {
    match a
    case Comment(_, id, text, _, target) => Commented(SendMessage(id, text, target, c.replies, c.draw))
    case React(_, id, emoticon, target) => Reacted(ReactToMessage(id, emoticon, target, c.replies, c.draw))
  }

  /** Run the planned actions one after another, the i-th under `env[i]`. */
  function RunSweep(plan: seq<Action>, env: seq<Conditions>): (effects: seq<Effect>)
    requires |env| == |plan| && DrawsInRange(env)
    ensures |effects| == |plan|
    ensures forall i :: 0 <= i < |plan| ==> (effects[i].Commented? <==> plan[i].Comment?)
    ensures forall i :: 0 <= i < |plan| ==> effects[i] == Perform(plan[i], env[i])
    decreases |plan|
  {
    if |plan| == 0 then []
    else [Perform(plan[0], env[0])] + RunSweep(plan[1..], env[1..])
  }

  /** Errors do not stop the sweep: what the i-th action does depends on its own
      replies only, never on how the other actions fared (a corollary of
      `RunSweep`'s contract). */
  lemma ActionsIndependent(plan: seq<Action>, env1: seq<Conditions>, env2: seq<Conditions>, i: nat)
    requires |env1| == |plan| && |env2| == |plan| && DrawsInRange(env1) && DrawsInRange(env2)
    requires i < |plan| && env1[i] == env2[i]
    ensures RunSweep(plan, env1)[i] == RunSweep(plan, env2)[i]
    ensures RunSweep(plan, env1)[i] == Perform(plan[i], env1[i])
  {
  }
}

=== FILE: random_range.dfy ===
/** `getRandomNumber` of src/utils.js, with `Math.random()` taken as an ideal
    real `r` in [0, 1). */
module RandomRange {

  /** `Math.floor`. */
  function Floor(x: real): int { x.Floor }

  /** `Math.ceil`. */
  function Ceil(x: real): (c: int)
    ensures x <= c as real < x + 1.0
  {
    -((-x).Floor)
  }

  lemma ScaleBelow(r: real, w: int)
    requires 0.0 <= r < 1.0 && w >= 1
    ensures 0.0 <= r * w as real < w as real
  {
    assert w as real - r * w as real == (1.0 - r) * w as real;
    assert (1.0 - r) * w as real > 0.0;
  }

  lemma FloorBelow(x: real, w: int)
    requires 0.0 <= x < w as real
    ensures 0 <= Floor(x) < w
  {
  }

  lemma DrawBounds(r: real, w: int)
    requires 0.0 <= r < 1.0 && w >= 1
    ensures 0 <= Floor(r * w as real) < w
  {
    ScaleBelow(r, w);
    FloorBelow(r * w as real, w);
  }

  /** `getRandomNumber(min, max)`: the bounds are rounded inward, then
      `Math.floor(r * (max - min + 1)) + min`. Whenever the rounded range is
      not empty the result lies in it. */
  function GetRandomNumber(min: real, max: real, r: real): (n: int)
    requires 0.0 <= r < 1.0
    ensures Ceil(min) <= Floor(max) ==> Ceil(min) <= n <= Floor(max)
  {
    var lo := Ceil(min);
    var hi := Floor(max);
    var n := Floor(r * (hi - lo + 1) as real) + lo;
    if lo <= hi then DrawBounds(r, hi - lo + 1); n else n
  }

  /** Integral bounds are left as they are by the rounding. */
  lemma RoundingKeepsIntegers(k: int)
    ensures Ceil(k as real) == k && Floor(k as real) == k
  {
  }

  /** Non-integral bounds are rounded inward before the draw. */
  lemma BoundsRoundedInward(min: real, max: real, r: real)
    requires 0.0 <= r < 1.0
    ensures GetRandomNumber(min, max, r) == GetRandomNumber(Ceil(min) as real, Floor(max) as real, r)
  {
    RoundingKeepsIntegers(Ceil(min));
    RoundingKeepsIntegers(Floor(max));
  }

  /** With equal integral bounds the draw does not matter. */
  lemma SinglePoint(m: int, r: real)
    requires 0.0 <= r < 1.0
    ensures GetRandomNumber(m as real, m as real, r) == m
  {
    RoundingKeepsIntegers(m);
  }

  /** The draw `r` makes `getRandomNumber(lo, hi)` return `k`. */
  predicate Draws(lo: int, hi: int, r: real, k: int) {
    0.0 <= r < 1.0 && GetRandomNumber(lo as real, hi as real, r) == k
  }

  /** Every integer of [lo, hi] is the result of some draw, so no index is unreachable. */
  lemma {:induction false} EveryValueReachable(lo: int, hi: int, k: int)
    requires lo <= k <= hi
    ensures exists r :: Draws(lo, hi, r, k)
  {
    RoundingKeepsIntegers(lo);
    RoundingKeepsIntegers(hi);
    var w := hi - lo + 1;
    var r := (k - lo) as real / w as real;
    assert r * w as real == (k - lo) as real;
    assert 0.0 <= r < 1.0;
    assert Draws(lo, hi, r, k);
  }

  /** The callers draw `getRandomNumber(0, n - 1)` for a list of length n >= 1:
      the result is a valid index. */
  lemma IndexDraw(n: nat, r: real)
    requires n >= 1 && 0.0 <= r < 1.0
    ensures 0 <= GetRandomNumber(0.0, (n - 1) as real, r) < n
  {
    RoundingKeepsIntegers(0);
    RoundingKeepsIntegers(n - 1);
  }
}

=== FILE: selection.dfy ===
/** Which message an action targets (poster.js:162-188, 209-227) and the two
    lookups used to reach a channel's discussion group (poster.js:108-128,
    241-261). */
module Selection {
  import opened Outcomes
  import opened Seqs
  import opened RandomRange
  import opened Membership

  /** A history entry: its `_` constructor name, its `id` (0 standing for a
      missing or falsy id), and the forward header fields the discussion lookup
      reads (`fwd_from.saved_from_peer.channel_id`, `fwd_from.saved_from_msg_id`),
      `None` where the optional chain yields undefined. */
  datatype Message = Message(kind: string, id: int, savedFromChannel: Option<int>, savedFromMsgId: Option<int>)

  /** `m?.id && m._ === 'message'`. */
  predicate IsValid(m: Message) {
    m.id != 0 && m.kind == "message"
  }

  /** The history filtered to real messages, order kept. */
  function ValidMessages(history: seq<Message>): (r: seq<Message>)
    ensures forall i :: 0 <= i < |r| ==> IsValid(r[i]) && r[i] in history
    ensures forall i :: 0 <= i < |history| && IsValid(history[i]) ==> history[i] in r
  {
    Filter(history, IsValid)
  }

  /** The valid messages of two pages are those of the first page followed by
      those of the second: the filter keeps the original order. */
  lemma ValidMessagesAppend(a: seq<Message>, b: seq<Message>)
    ensures ValidMessages(a + b) == ValidMessages(a) + ValidMessages(b)
  {
    FilterAppend(a, b, IsValid);
  }

  /** The head of the filtered list is the first valid message of the history. */
  lemma FirstValidMessage(history: seq<Message>, i: nat)
    requires i < |history| && IsValid(history[i])
    requires forall j :: 0 <= j < i ==> !IsValid(history[j])
    ensures |ValidMessages(history)| > 0 && ValidMessages(history)[0] == history[i]
  {
    FilterHead(history, IsValid, i);
  }

  /** The target marker `$` and `*` pick from the valid messages with the draw
      `r`; an empty list fails before the marker is looked at; any other marker
      is unsupported. */
  function PickTarget(history: seq<Message>, target: string, r: real): (res: Result<Message>)
    requires 0.0 <= r < 1.0
    ensures res == Err(NoValidMessages) <==> |ValidMessages(history)| == 0
    ensures res.Ok? ==> IsValid(res.value) && res.value in history
    ensures |ValidMessages(history)| > 0 && target == "$" ==> res == Ok(ValidMessages(history)[0])
    ensures |ValidMessages(history)| > 0 && target == "*" ==> res.Ok? && res.value in ValidMessages(history)
    ensures |ValidMessages(history)| > 0 && target != "$" && target != "*" ==> res == Err(UnsupportedTarget(target))
    // The "Random message not found." guard never fires.
    ensures res != Err(RandomMessageNotFound)
  {
    var valid := ValidMessages(history);
    if |valid| == 0 then Err(NoValidMessages)
    else if target == "$" then Ok(valid[0])
    else if target == "*" then
      var k := GetRandomNumber(0.0, (|valid| - 1) as real, r);
      IndexDraw(|valid|, r);
      // An index outside the list reads undefined, whose `id` is falsy.
      if 0 <= k < |valid| && valid[k].id != 0 then Ok(valid[k]) else Err(RandomMessageNotFound)
    else Err(UnsupportedTarget(target))
  }

  /** Under `*` every valid message is the target for some draw. */
  lemma EveryCandidateReachable(history: seq<Message>, k: nat)
    requires k < |ValidMessages(history)|
    ensures exists r :: 0.0 <= r < 1.0 && PickTarget(history, "*", r) == Ok(ValidMessages(history)[k])
  {
    var n := |ValidMessages(history)|;
    EveryValueReachable(0, n - 1, k);
    var r :| Draws(0, n - 1, r, k);
    assert PickTarget(history, "*", r) == Ok(ValidMessages(history)[k]);
  }

  /** The reply of `channels.getFullChannel`: `full_chat.linked_chat_id` (`None`
      when absent; 0 is falsy too) and the `chats` list. */
  datatype FullChannel = FullChannel(linkedChatId: Option<int>, chats: seq<Chat>)

  /** `getLinkedChatPeer` (poster.js:114-118): the first chat whose id equals
      the linked chat id. */
  function LinkedChat(full: FullChannel): (r: Result<Chat>)
    ensures r == Err(NoLinkedChat) <==> full.linkedChatId.None? || full.linkedChatId.value == 0
    ensures r == Err(LinkedChatNotFound) <==>
      && full.linkedChatId.Some? && full.linkedChatId.value != 0
      && forall i :: 0 <= i < |full.chats| ==> full.chats[i].id != full.linkedChatId.value
    ensures r.Ok? ==>
      && full.linkedChatId.Some? && r.value.id == full.linkedChatId.value
      && exists i :: 0 <= i < |full.chats| && full.chats[i] == r.value
                   && forall j :: 0 <= j < i ==> full.chats[j].id != r.value.id
    // No other failure: a matching chat is always returned.
    ensures r.Err? ==> r.failure == NoLinkedChat || r.failure == LinkedChatNotFound
  {
    match full.linkedChatId
    case None => Err(NoLinkedChat)
    case Some(linked) =>
      if linked == 0 then Err(NoLinkedChat)
      else match FindFirst(full.chats, (c: Chat) => c.id == linked)
        case None => Err(LinkedChatNotFound)
        case Some(chat) => Ok(chat)
  }

  /** The message is the discussion group's copy of post `postId` of channel
      `channelId`; both comparisons are `===`, so undefined matches undefined. */
  predicate ForwardedFrom(m: Message, channelId: Option<int>, postId: Option<int>) {
    m.savedFromChannel == channelId && m.savedFromMsgId == postId
  }

  /** `findDiscussionMessageId` (poster.js:248-256): the id of the first
      message forwarded from the given channel post. */
  function DiscussionMessageId(history: seq<Message>, channelId: Option<int>, postId: Option<int>): (r: Result<int>)
    ensures r.Err? <==> forall i :: 0 <= i < |history| ==> !ForwardedFrom(history[i], channelId, postId)
    ensures r.Err? ==> r.failure == NoDiscussionMessage
    ensures r.Ok? ==>
      exists i :: 0 <= i < |history| && ForwardedFrom(history[i], channelId, postId) && history[i].id == r.value
                && forall j :: 0 <= j < i ==> !ForwardedFrom(history[j], channelId, postId)
  {
    match FindFirst(history, (m: Message) => ForwardedFrom(m, channelId, postId))
    case None => Err(NoDiscussionMessage)
    case Some(m) => Ok(m.id)
  }
}

=== FILE: seqs.dfy ===
/** The two sequence searches the source leans on: `Array.prototype.filter`
    and the leftmost hit of `Array.prototype.find`. */
module Seqs {
  import opened Outcomes

  /** The elements of `xs` that satisfy `p`, in their original order. */
  function Filter<T>(xs: seq<T>, p: T -> bool): (r: seq<T>)
    ensures |r| <= |xs|
    ensures forall i :: 0 <= i < |r| ==> r[i] in xs && p(r[i])
    ensures forall i :: 0 <= i < |xs| && p(xs[i]) ==> xs[i] in r
    decreases |xs|
  {
    if |xs| == 0 then [] else (if p(xs[0]) then [xs[0]] else []) + Filter(xs[1..], p)
  }

  /** Filtering distributes over concatenation: the kept elements of a prefix stay
      ahead of the kept elements of the rest, so the original order survives. */
  lemma {:induction false} FilterAppend<T>(a: seq<T>, b: seq<T>, p: T -> bool)
    ensures Filter(a + b, p) == Filter(a, p) + Filter(b, p)
    decreases |a|
  {
    if |a| == 0 {
      assert a + b == b;
    } else {
      assert (a + b)[1..] == a[1..] + b;
      FilterAppend(a[1..], b, p);
    }
  }

  /** Filtering a filtered sequence again changes nothing. */
  lemma {:induction false} FilterIdempotent<T>(xs: seq<T>, p: T -> bool)
    ensures Filter(Filter(xs, p), p) == Filter(xs, p)
    decreases |xs|
  {
    if |xs| > 0 {
      FilterIdempotent(xs[1..], p);
      var head := if p(xs[0]) then [xs[0]] else [];
      FilterAppend(head, Filter(xs[1..], p), p);
    }
  }

  /** When every element passes, the filter is the identity. */
  lemma {:induction false} FilterAllPass<T>(xs: seq<T>, p: T -> bool)
    requires forall i :: 0 <= i < |xs| ==> p(xs[i])
    ensures Filter(xs, p) == xs
    decreases |xs|
  {
    if |xs| > 0 {
      FilterAllPass(xs[1..], p);
    }
  }

  /** When no element passes, the filter is empty. */
  lemma {:induction false} FilterNonePass<T>(xs: seq<T>, p: T -> bool)
    requires forall i :: 0 <= i < |xs| ==> !p(xs[i])
    ensures Filter(xs, p) == []
    decreases |xs|
  {
    if |xs| > 0 {
      FilterNonePass(xs[1..], p);
    }
  }

  /** The first element of the filter is the first element of `xs` that passes. */
  lemma {:induction false} FilterHead<T>(xs: seq<T>, p: T -> bool, i: nat)
    requires i < |xs| && p(xs[i])
    requires forall j :: 0 <= j < i ==> !p(xs[j])
    ensures |Filter(xs, p)| > 0 && Filter(xs, p)[0] == xs[i]
    decreases i
  {
    if i > 0 {
      FilterHead(xs[1..], p, i - 1);
    }
  }

  /** Index of the leftmost element at or after `from` that satisfies `p`. */
  function FindFrom<T>(xs: seq<T>, p: T -> bool, from: nat): (r: Option<nat>)
    requires from <= |xs|
    ensures r.Some? ==> from <= r.value < |xs| && p(xs[r.value])
    ensures r.Some? ==> forall j :: from <= j < r.value ==> !p(xs[j])
    ensures r.None? ==> forall j :: from <= j < |xs| ==> !p(xs[j])
    decreases |xs| - from
  {
    if from == |xs| then None
    else if p(xs[from]) then Some(from)
    else FindFrom(xs, p, from + 1)
  }

  /** `xs.find(p)`: the leftmost element satisfying `p`, if any. */
  function FindFirst<T>(xs: seq<T>, p: T -> bool): (r: Option<T>)
    ensures r.Some? ==> r.value in xs && p(r.value)
    ensures r.Some? ==> exists i :: 0 <= i < |xs| && xs[i] == r.value && forall j :: 0 <= j < i ==> !p(xs[j])
    ensures r.None? <==> forall i :: 0 <= i < |xs| ==> !p(xs[i])
  {
    match FindFrom(xs, p, 0)
    case None => None
    case Some(i) => Some(xs[i])
  }
}

=== FILE: text.dfy ===
/** Character classes and the few string operations of JavaScript that the
    source applies to identifiers: `[\w-]`, `\d`, `indexOf`, `replace` with a
    string pattern, `split` on one character, `includes` and `parseInt(s, 10)`. */
module Text {
  import opened Outcomes

  predicate IsDigit(c: char) { '0' <= c <= '9' }

  /** The class `[\w-]`: ASCII letters, digits, underscore and hyphen. */
  predicate IsWordChar(c: char) {
    'a' <= c <= 'z' || 'A' <= c <= 'Z' || IsDigit(c) || c == '_' || c == '-'
  }

  predicate AllDigits(s: string) { forall i :: 0 <= i < |s| ==> IsDigit(s[i]) }

  predicate HasPrefixAt(s: string, p: string, i: nat) {
    i + |p| <= |s| && s[i..i + |p|] == p
  }

  /** The characters a prefix match pins down. */
  lemma PrefixChars(s: string, p: string, i: nat)
    ensures HasPrefixAt(s, p, i) ==> forall k :: 0 <= k < |p| ==> s[i + k] == p[k]
  {
    if HasPrefixAt(s, p, i) {
      forall k | 0 <= k < |p|
        ensures s[i + k] == p[k]
      {
        assert s[i..i + |p|][k] == s[i + k];
      }
    }
  }

  /** `s.includes(sub)`. */
  predicate Contains(s: string, sub: string) {
    exists i: nat :: i + |sub| <= |s| && HasPrefixAt(s, sub, i)
  }

  /** Length of the longest run of `[\w-]` characters starting at `j`: what the
      greedy `[\w-]+` consumes there. */
  function WordRunLength(s: string, j: nat): (n: nat)
    requires j <= |s|
    ensures j + n <= |s|
    ensures forall k :: j <= k < j + n ==> IsWordChar(s[k])
    ensures j + n == |s| || !IsWordChar(s[j + n])
    decreases |s| - j
  {
    if j < |s| && IsWordChar(s[j]) then 1 + WordRunLength(s, j + 1) else 0
  }

  /** `s.indexOf(c)`, with -1 as `None`. */
  function IndexOf(s: string, c: char): (r: Option<nat>)
    ensures r.None? <==> c !in s
    ensures r.Some? ==> r.value < |s| && s[r.value] == c && c !in s[..r.value]
  {
    if |s| == 0 then None
    else if s[0] == c then Some(0)
    else match IndexOf(s[1..], c)
      case None => None
      case Some(k) =>
        assert s[..k + 1] == [s[0]] + s[1..][..k];
        Some(k + 1)
  }

  /** The first occurrence of `c` sits right after a prefix free of `c`. */
  lemma IndexOfAfterPrefix(a: string, c: char, b: string)
    requires c !in a
    ensures IndexOf(a + [c] + b, c) == Some(|a|)
  {
    var s := a + [c] + b;
    assert s[|a|] == c;
    assert forall k :: 0 <= k < |a| ==> s[k] == a[k];
    assert forall k :: |a| < k <= |s| ==> s[..k][|a|] == c;
  }

  /** `s.replace(c, "")` with a one-character string pattern: only the first
      occurrence is removed. */
  function RemoveFirst(s: string, c: char): (r: string)
    ensures c !in s ==> r == s
    ensures c in s ==> |r| == |s| - 1
    ensures c in s ==> exists k :: 0 <= k < |s| && s[k] == c && c !in s[..k] && r == s[..k] + s[k + 1..]
  {
    match IndexOf(s, c)
    case None => s
    case Some(k) => s[..k] + s[k + 1..]
  }

  /** `s.split(sep)` for a one-character separator. */
  function Split(s: string, sep: char): (parts: seq<string>)
    ensures |parts| >= 1
    ensures forall i :: 0 <= i < |parts| ==> sep !in parts[i]
    ensures Join(parts, sep) == s
    decreases |s|
  {
    match IndexOf(s, sep)
    case None => [s]
    case Some(k) =>
      var rest := Split(s[k + 1..], sep);
      assert ([s[..k]] + rest)[1..] == rest;
      assert s == s[..k] + [sep] + s[k + 1..];
      [s[..k]] + rest
  }

  /** `parts.join(sep)`. */
  function Join(parts: seq<string>, sep: char): string
    requires |parts| >= 1
  {
    if |parts| == 1 then parts[0] else parts[0] + [sep] + Join(parts[1..], sep)
  }

  /** Splitting at the first separator: the part before it, then the rest split. */
  lemma SplitAtFirst(a: string, sep: char, b: string)
    requires sep !in a
    ensures Split(a + [sep] + b, sep) == [a] + Split(b, sep)
  {
    var s := a + [sep] + b;
    IndexOfAfterPrefix(a, sep, b);
    assert s[..|a|] == a;
    assert s[|a| + 1..] == b;
  }

  /** Splitting undoes joining whenever no part holds the separator, so
      `Split` and `Join` are inverse on separator-free parts. */
  lemma {:induction false} SplitJoin(parts: seq<string>, sep: char)
    requires |parts| >= 1
    requires forall i :: 0 <= i < |parts| ==> sep !in parts[i]
    ensures Split(Join(parts, sep), sep) == parts
    decreases |parts|
  {
    if |parts| == 1 {
      assert sep !in parts[0];
    } else {
      assert sep !in parts[0];
      SplitAtFirst(parts[0], sep, Join(parts[1..], sep));
      SplitJoin(parts[1..], sep);
      assert parts == [parts[0]] + parts[1..];
    }
  }

  /** A string with exactly one separator splits into the two sides. */
  lemma SplitInTwo(a: string, b: string, sep: char)
    requires sep !in a && sep !in b
    ensures Split(a + [sep] + b, sep) == [a, b]
  {
    SplitJoin([a, b], sep);
    assert Join([a, b], sep) == a + [sep] + Join([b], sep);
  }

  function DigitValue(c: char): nat
    requires IsDigit(c)
  {
    c as int - '0' as int
  }

  function DigitChar(d: nat): (c: char)
    requires d < 10
    ensures IsDigit(c) && DigitValue(c) == d
  {
    ('0' as int + d) as char
  }

  /** `10^n`. */
  function Pow10(n: nat): (p: nat)
    ensures p >= 1
  {
    if n == 0 then 1 else 10 * Pow10(n - 1)
  }

  /** `parseInt(s, 10)` of a string of decimal digits: n digits give a value below 10^n. */
  function DecimalValue(s: string): (v: nat)
    requires AllDigits(s)
    ensures v < Pow10(|s|)
    decreases |s|
  {
    if |s| == 0 then 0
    else
      var prefix := DecimalValue(s[..|s| - 1]);
      assert prefix + 1 <= Pow10(|s| - 1);
      10 * prefix + DigitValue(s[|s| - 1])
  }

  /** The decimal representation of `n`; parsing it gives back `n`. */
  function DecimalString(n: nat): (s: string)
    ensures |s| >= 1 && AllDigits(s)
    ensures DecimalValue(s) == n
    decreases n
  {
    if n < 10 then [DigitChar(n)]
    else
      var s := DecimalString(n / 10) + [DigitChar(n % 10)];
      assert s[..|s| - 1] == DecimalString(n / 10);
      s
  }
}
